=== FILE: README.md ===
# FlatCrawler decision core, in Dafny

FlatCrawler is an interactive explorer for FlatBuffers files whose schema is
unknown, with a batch mode that fingerprints many files. This project models
the decision logic between raw offsets and typed nodes, and proves properties
of it:

- **Type tokens** (`TypeCodeUtil`, `type_code.dfy`). An operator's type token
  such as `" u32[] "`, `"TABLE"` or `"s16"` becomes an `(asArray, TypeCode)`
  pair. Padding is trimmed once, one trailing `[]` is stripped, `table` in
  any ASCII case means an array of objects, and the rest goes through an
  exact, case-sensitive lookup table.
- **Navigation** (`ConsoleCrawler`, `console_crawler.dfy`). This covers:
  - how a command line is split and dispatched;
  - how a type token selects one of six readers;
  - how a successful read records the field's hint and tracked child;
  - how an array caches each entry it has read, per index;
  - how `up` and `root` move;
  - which commands the session history keeps.

  Nodes live in an arena, a sequence indexed by handle. A node's parent and
  its tracked children, or its cached entries, are handles into it. The readers and argument parsers
  whose bodies are elsewhere are parameters, collected in `Env`.
- **Objects** (`FlatBufferObject`, `flat_buffer_object.dfy`). A table node
  is located at an absolute offset or through a parent field's reference.
  Its vtable is found from the table start alone.
- **Unions** (`FlatBufferUnionInfo`, `flat_buffer_union.dfy`). The
  discriminant is read from field 0 of the wrapper and the object from
  field 1. The discriminant is looked up in an operator-supplied map, and
  the payload is read at field 0 of the object.
- **Batch analysis** (`FileAnalysis`, `file_analysis.dfy`). This covers:
  - which files are analysed and which are skipped;
  - the order-sensitive fold of per-field observation hashes, in ascending
    field order;
  - the report, grouped by field count, then by hash, with entries ordered
    by file name, then path.

Support modules:

- `FlatBuffer` (`flat_buffer.dfy`) holds the layout helpers of the
  `FlatBufferNodeField` base class. These are little-endian reads, vtable
  decoding, and field and reference offsets. They are given bodies that
  follow the FlatBuffers binary format: a table starts with a signed 32-bit
  distance back to its vtable, and the vtable is a run of `ushort`s. A
  round-trip lemma ties decoding to an encoder.
- `Grouping` (`grouping.dfy`) models LINQ `GroupBy`, with a reference
  definition of its key order.
- `Text` (`text.dfy`) models the .NET string operations the core calls.
- `Wrappers` (`wrappers.dfy`) provides `Option` and `Result`.

Exceptions become `Err`/`Failed`/`Error` values. The hash combinator, the
per-observation hash, the root analysis, the size check and all node readers
not listed above are function-typed parameters. Their values stay
uninterpreted.

## Model

| member | source | states |
|---|---|---|
| TypeCodeUtil.GetTypeCode | FlatCrawler.Lib/Util/TypeCodeUtil.cs:24-44 | a token gets a recognised code exactly when it is one of the 28 table tokens; anything else, including the empty string, gives `Unrecognized`, which is `TypeCode.Empty` |
| TypeCodeUtil.AliasesInvert | FlatCrawler.Lib/Util/TypeCodeUtil.cs:24-44 | for every recognised code `c`, a token maps to `c` if and only if it is one of `c`'s aliases: the switch and the table read from the code's side agree |
| TypeCodeUtil.AliasesSound | FlatCrawler.Lib/Util/TypeCodeUtil.cs:24-44 | every alias listed for a code maps to that code |
| TypeCodeUtil.AliasesComplete | FlatCrawler.Lib/Util/TypeCodeUtil.cs:24-44 | every recognised token is listed among its code's aliases |
| TypeCodeUtil.ValidIffKnown | FlatCrawler.Lib/Util/TypeCodeUtil.cs:46 | the code of a token is a valid node type if and only if the token is in the table |
| TypeCodeUtil.KnownTokenSpelling | FlatCrawler.Lib/Util/TypeCodeUtil.cs:24-44 | every table token is spelt with lower-case ASCII letters and digits only |
| TypeCodeUtil.UpperCaseUnrecognized | FlatCrawler.Lib/Util/TypeCodeUtil.cs:24-44 | the lookup is case-sensitive: a token with any upper-case ASCII letter is unrecognised |
| TypeCodeUtil.EmptyAndCapitalizedUnrecognized | FlatCrawler.Lib/Util/TypeCodeUtil.cs:24-44 | `""` and `"Int"` are unrecognised |
| TypeCodeUtil.StripArray | FlatCrawler.Lib/Util/TypeCodeUtil.cs:11-17 | the array flag is set exactly when the trimmed text ends in `[]`; then the token is the trimmed text minus that one `[]`, otherwise it is the trimmed text |
| TypeCodeUtil.GetTypeCodeTuple | FlatCrawler.Lib/Util/TypeCodeUtil.cs:9-22 | the flag is set when `[]` was stripped or the token spells `table`; `table` in any case gives `Object`; otherwise the code is recognised exactly when the stripped token is a table token, and is then that token's code |
| TypeCodeUtil.PaddingIgnored | FlatCrawler.Lib/Util/TypeCodeUtil.cs:11 | surrounding the text with white space on either side does not change the result |
| TypeCodeUtil.WhiteSpaceTokenUnrecognized | FlatCrawler.Lib/Util/TypeCodeUtil.cs:19-21 | a token holding white space anywhere is neither `table` nor a table token |
| TypeCodeUtil.InnerWhiteSpaceUnrecognized | FlatCrawler.Lib/Util/TypeCodeUtil.cs:11-21 | white space left after stripping `[]` is not trimmed again, so `"int []"` is unrecognised |
| TypeCodeUtil.ArrayStrippedOnce | FlatCrawler.Lib/Util/TypeCodeUtil.cs:13-17 | only one `[]` is stripped: text ending in `[][]` gives `(true, Unrecognized)` |
| TypeCodeUtil.BracketTokenUnrecognized | FlatCrawler.Lib/Util/TypeCodeUtil.cs:19-21 | a stripped token still ending in `]` is neither `table` nor a table token |
| TypeCodeUtil.TableIsObjectArray | FlatCrawler.Lib/Util/TypeCodeUtil.cs:19-20 | a stripped token spelling `table` in any case gives `(true, Object)`, with or without `[]` |
| TypeCodeUtil.PlainTokenTuple | FlatCrawler.Lib/Util/TypeCodeUtil.cs:9-22 | an unpadded token without `[]` gives `(false, its code)`, unless it spells `table` |
| TypeCodeUtil.KnownTokenTuple | FlatCrawler.Lib/Util/TypeCodeUtil.cs:9-22 | every table token typed as it stands gives `(false, its code)`, except `table`, which gives `(true, Object)` |
| TypeCodeUtil.ArrayTokenTuple | FlatCrawler.Lib/Util/TypeCodeUtil.cs:13-21 | appending `[]` to an unpadded token other than `table` gives `(true, the token's code)` |
| Text.Trim | FlatCrawler.Lib/Util/TypeCodeUtil.cs:11 | the trimmed text is a slice of the input with only white space cut from either side, and it neither starts nor ends with white space |
| Text.TrimIdempotent | FlatCrawler.Lib/Util/TypeCodeUtil.cs:11 | trimming twice is trimming once |
| Text.TrimPadding | FlatCrawler.Lib/Util/TypeCodeUtil.cs:11 | white space added on either side is removed again by trimming |
| Text.IndexOf | FlatCrawler.ConsoleApp/Crawler/ConsoleCrawler.cs:56-57 | the position found holds the character and no earlier position does; nothing is found exactly when the character does not occur |
| Text.ToLowerString | FlatCrawler.ConsoleApp/Crawler/ConsoleCrawler.cs:58-59 | same length; each ASCII upper-case letter becomes lower case and every other character is kept |
| Text.GetFileName | FlatCrawler.Lib/Analysis/Files/FileAnalysis.cs:163 | the file name is a suffix of the path with no directory separator in it, and preceded by a separator when it is not the whole path |
| Text.OrdinalTotal | FlatCrawler.Lib/Analysis/Files/FileAnalysis.cs:86-87 | any two strings are ordered one way or the other |
| Text.OrdinalTransitive | FlatCrawler.Lib/Analysis/Files/FileAnalysis.cs:86-87 | the string order is transitive |
| Text.OrdinalAntisymmetric | FlatCrawler.Lib/Analysis/Files/FileAnalysis.cs:86-87 | strings ordered both ways are equal |
| FlatBuffer.ReadI32 | FlatCrawler.Lib/Model/Nodes/Object/FlatBufferObject.cs:20 | the signed 32-bit value lies in range and agrees with the unsigned reading of the same bytes modulo 2^32 |
| FlatBuffer.GetVtableOffset | FlatCrawler.Lib/Model/Nodes/Object/FlatBufferObject.cs:20 | on success, both the table's 4-byte header and the vtable's 4-byte header lie in the buffer, and the vtable lies the stored distance before the table, modulo 2^32 |
| FlatBuffer.ReadVTable | FlatCrawler.Lib/Model/Nodes/Object/FlatBufferObject.cs:21 | decoding succeeds exactly when the header is in bounds and its length is even, at least 4, and in bounds; the result is valid and holds the stored length, table length and one entry per `ushort` |
| FlatBuffer.VTableRoundTrip | FlatCrawler.Lib/Model/Nodes/Object/FlatBufferObject.cs:21 | decoding an encoded vtable, wherever it sits in the buffer, returns exactly the table length and field offsets written |
| FlatBuffer.GetFieldOffset | FlatCrawler.ConsoleApp/Crawler/ConsoleCrawler.cs:78 | a field resolves exactly when its index is within the vtable and its slot is non-zero, to the table start plus the slot; otherwise the error says which |
| FlatBuffer.GetReferenceOffset | FlatCrawler.Lib/Model/Nodes/Object/FlatBufferObject.cs:27 | a resolved reference lies inside the buffer and is the field's position plus the `uint` stored there; a missing field passes its error on |
| FlatBuffer.ReadUInt8 | FlatCrawler.Lib/Model/Nodes/Union/FlatBufferUnionInfo.cs:14 | the byte read is the one at the field's position; a missing field passes its error on |
| FlatBufferObject.ReadAt | FlatCrawler.Lib/Model/Nodes/Object/FlatBufferObject.cs:17-23 | succeeds exactly when the vtable is located and decodes; the object keeps the given offset, table offset and parent, is named `Object`, and holds the vtable decoded at the located vtable offset |
| FlatBufferObject.Read | FlatCrawler.Lib/Model/Nodes/Object/FlatBufferObject.cs:11-15 | succeeds exactly when a vtable is located from the node's own offset and decodes, and otherwise fails as malformed. The table starts at the node offset, and the object holds that vtable, the given parent and the name `Object` |
| FlatBufferObject.ReadFromField | FlatCrawler.Lib/Model/Nodes/Object/FlatBufferObject.cs:25-29 | a resolved reference gives exactly `Read` at the reference offset with the same parent, and a reference failure is the result |
| FlatBufferObject.VTableDependsOnTableOffsetOnly | FlatCrawler.Lib/Model/Nodes/Object/FlatBufferObject.cs:20-21 | neither the node offset nor the parent affects whether the vtable is found or what it holds |
| FlatBufferObject.FieldOffsetsOfObject | FlatCrawler.Lib/Model/Nodes/Object/FlatBufferObject.cs:13-22 | in an object read at an offset, each present field lies at that offset plus its vtable slot |
| FlatBufferUnionInfo.Default | FlatCrawler.Lib/Model/Nodes/Union/FlatBufferUnionInfo.cs:9 | the default mapping has no arm for any tag |
| FlatBufferUnionInfo.ReadUnionOf | FlatCrawler.Lib/Model/Nodes/Union/FlatBufferUnionInfo.cs:19-24 | an unmapped tag fails; a mapped tag reads the payload at field 0 of the object, with exactly the mapped type and array flag, and returns the info, the object and the payload |
| FlatBufferUnionInfo.ReadUnion | FlatCrawler.Lib/Model/Nodes/Union/FlatBufferUnionInfo.cs:12-17 | the tag is the byte at field 0 of the wrapper and the object is read from field 1. A failed tag read, or else a failed object read, is the result; when both succeed the result is `ReadUnionOf` on them |
| FlatBufferUnionInfo.ReadUnionResolves | FlatCrawler.Lib/Model/Nodes/Union/FlatBufferUnionInfo.cs:12-24 | a successful read carries the arm mapped for the wrapper's tag byte, an object at the wrapper's field-1 reference whose parent is the wrapper, and the payload read at the object's field 0 |
| FlatBufferUnionInfo.DefaultRejectsEveryTag | FlatCrawler.Lib/Model/Nodes/Union/FlatBufferUnionInfo.cs:9 | with the default mapping every union read fails |
| ConsoleCrawler.Classify | FlatCrawler.ConsoleApp/Crawler/ConsoleCrawler.cs:210-218 | each named token selects its reader, in both directions. Any other token selects the struct-table reader when it contains `[]` anywhere and the field-value reader otherwise, carrying the token |
| ConsoleCrawler.ClassifyAgreesWithTypeCodes | FlatCrawler.ConsoleApp/Crawler/ConsoleCrawler.cs:212-216 | each named token parses, by the type-token parser, to the array flag and code that match the reader kind it selects: `string`/`str` to a plain string, `object` to a plain object, `table` and `object[]` to an array of objects, and `string[]` to an array of strings |
| ConsoleCrawler.GetEntry | FlatCrawler.ConsoleApp/Crawler/ConsoleCrawler.cs:101-107 | an entry already read for an index is returned as it is, with nothing changed. Otherwise the entry is built, and on success added as a new child of the array and cached for its index, the array keeping every other entry it had cached. On failure the error is passed on. The array's own node, parent and hints are kept, and no other node changes |
| ConsoleCrawler.GetEntryKeepsOtherEntries | FlatCrawler.ConsoleApp/Crawler/ConsoleCrawler.cs:101-107 | reading one entry keeps every other cached entry, designating the same unchanged node |
| ConsoleCrawler.EntryCached | FlatCrawler.ConsoleApp/Crawler/ConsoleCrawler.cs:101-107 | reading an entry a second time returns the same node and changes nothing |
| ConsoleCrawler.ReadNode | FlatCrawler.ConsoleApp/Crawler/ConsoleCrawler.cs:201-223 | an array node yields its cached entry whatever the token. A table node reads with the selected reader, then records the token as the field's hint and the new node as its tracked child, changing no other node. Any other node fails |
| ConsoleCrawler.ArrayReadIgnoresToken | FlatCrawler.ConsoleApp/Crawler/ConsoleCrawler.cs:201-203 | on an array node the type token plays no part |
| ConsoleCrawler.HintRecordedOnlyOnSuccess | FlatCrawler.ConsoleApp/Crawler/ConsoleCrawler.cs:210-222 | the read succeeds exactly when the selected reader does, and only then are the hint and tracked child recorded, holding the token used and the node returned |
| ConsoleCrawler.ProcessCommandSingle | FlatCrawler.ConsoleApp/Crawler/ConsoleCrawler.cs:148-199 | `tree`, `load`, `dump`, `clear`, `p`, `info`, `hex` and `h` are `Silent` in place, and any other word but `quit`, `up` and `root` is `Unrecognized`. `up` moves to the parent or stays silently, and `root` always navigates, to the parent if there is one. Only `quit` quits, only `up` and `root` navigate, and the nodes never change |
| ConsoleCrawler.ProcessWithArgs | FlatCrawler.ConsoleApp/Crawler/ConsoleCrawler.cs:63-138 | an unknown command word is `Unrecognized`, and so is `ro`/`fo` off a table and `eo` off an array. `ro`, `fo` and `eo` are `Silent` exactly when the hex index parses and the offset resolves, else `Error`, and never move. `ro` and `fo` change no node, and `eo` only caches the entry it reads. `hex`/`h` are `Silent`. Only `rf` navigates: `rf <index> <type>` on a table or array is `NavigateTo`. A bare `rf <index>` on a table moves silently to the tracked child when there is one, else errs. On an array it navigates to the cached entry, reading and caching it first if needed, or errs when the index does not parse or the entry fails. `rf` on a leaf is `Silent`. A failing command leaves nodes and position unchanged, and nothing quits |
| ConsoleCrawler.NavigateTo | FlatCrawler.ConsoleApp/Crawler/ConsoleCrawler.cs:97-111 | `rf <index> <type>` navigates exactly when the arguments parse and `ReadNode` succeeds for the index and lower-cased type, and then to what it returns. Otherwise it errs in place |
| ConsoleCrawler.ProcessCommand | FlatCrawler.ConsoleApp/Crawler/ConsoleCrawler.cs:54-63 | a command without a space is a lower-cased single word. Otherwise the word before the first space is lower-cased, a blank word is `Unrecognized`, and the rest is its argument. A failure changes nothing |
| ConsoleCrawler.BlankCommandWordUnrecognized | FlatCrawler.ConsoleApp/Crawler/ConsoleCrawler.cs:59-61 | a command starting with a space is unrecognised and changes nothing |
| ConsoleCrawler.UpMovesToParent | FlatCrawler.ConsoleApp/Crawler/ConsoleCrawler.cs:177-184 | `up` in any case moves to the parent, or stays silently at a node without one |
| ConsoleCrawler.RootMovesAtMostOneLevel | FlatCrawler.ConsoleApp/Crawler/ConsoleCrawler.cs:185-189 | `root` always reports navigation and moves at most one level: to the parent when there is one, otherwise nowhere |
| ConsoleCrawler.RenavigationReturnsTrackedChild | FlatCrawler.ConsoleApp/Crawler/ConsoleCrawler.cs:89-95 | after `rf i t` on a table, `up` returns to the table, and `rf i` returns to the very node that was read |
| ConsoleCrawler.ArrayRenavigationReturnsCachedEntry | FlatCrawler.ConsoleApp/Crawler/ConsoleCrawler.cs:101-107 | after `rf i` on an array, `up` returns to the array, and `rf i` again returns the very entry read before, with nothing changed |
| ConsoleCrawler.CachedEntryKeepsBookkeeping | FlatCrawler.ConsoleApp/Crawler/ConsoleCrawler.cs:101-107 | `rf i` on an array whose entry `i` is cached navigates to that node and changes no node, so the hints and tracked children recorded on the entry are kept |
| ConsoleCrawler.Start | FlatCrawler.ConsoleApp/Crawler/ConsoleCrawler.cs:28 | the session starts at a root without a parent, with an empty history |
| ConsoleCrawler.Step | FlatCrawler.ConsoleApp/Crawler/ConsoleCrawler.cs:37-47 | the result, nodes and position are those of `ProcessCommand` on the line. The line is appended to the history exactly when its result is not `Silent`, `Error`, `Unrecognized` or `Quit`, and a failed command keeps the position |
| ConsoleCrawler.Crawl | FlatCrawler.ConsoleApp/Crawler/ConsoleCrawler.cs:31-51 | the history only grows, and everything it gains is one of the lines typed |
| ConsoleCrawler.Results | FlatCrawler.ConsoleApp/Crawler/ConsoleCrawler.cs:31-38 | one result per line read, starting with the first line's result, never more results than lines |
| ConsoleCrawler.ResultsEndAtFirstQuit | FlatCrawler.ConsoleApp/Crawler/ConsoleCrawler.cs:31-38 | every line is read until the first `Quit`, and none after it |
| ConsoleCrawler.CrawlHistory | FlatCrawler.ConsoleApp/Crawler/ConsoleCrawler.cs:37-47 | the history gains exactly the lines whose result is recorded, in the order typed, up to the first `quit` |
| ConsoleCrawler.CrawlStopsAtQuit | FlatCrawler.ConsoleApp/Crawler/ConsoleCrawler.cs:37-39 | once a stretch of input ends in `quit`, the lines after it change neither the results nor the session |
| ConsoleCrawler.CrawlAppend | FlatCrawler.ConsoleApp/Crawler/ConsoleCrawler.cs:31-51 | without a `quit`, crawling two stretches of input in turn equals crawling them joined |
| Grouping.DistinctKeys | FlatCrawler.Lib/Analysis/Files/FileAnalysis.cs:77 | each key once, every element's key among them, and only keys some element has |
| Grouping.DistinctKeysFirstAppearance | FlatCrawler.Lib/Analysis/Files/FileAnalysis.cs:77 | the keys come in order of first appearance: wherever a later key occurs, an earlier one has occurred before it |
| Grouping.GroupBy | FlatCrawler.Lib/Analysis/Files/FileAnalysis.cs:77 | groups follow the first appearance of their keys, and each group is non-empty and holds exactly the elements with its key, in input order |
| Grouping.GroupByPartition | FlatCrawler.Lib/Analysis/Files/FileAnalysis.cs:77-81 | grouping loses and duplicates nothing: the members of all groups are a permutation of the input |
| FileAnalysis.SortedKeys | FlatCrawler.Lib/Analysis/Files/FileAnalysis.cs:143 | the field indices, each once, strictly increasing |
| FileAnalysis.OrderedHashes | FlatCrawler.Lib/Analysis/Files/FileAnalysis.cs:143 | one observation hash per field, in ascending field order |
| FileAnalysis.FoldHashIsLeftFold | FlatCrawler.Lib/Analysis/Files/FileAnalysis.cs:142-159 | the fingerprint is the left fold of the combinator from 0 over the hashes in order |
| FileAnalysis.DumpLoop | FlatCrawler.Lib/Analysis/Files/FileAnalysis.cs:149-154 | completes exactly when every `Summary` returns, and then holds one `[index] summary` line per field in ascending order and the same fold over the same hashes |
| FileAnalysis.DumpLines | FlatCrawler.Lib/Analysis/Files/FileAnalysis.cs:149-154 | the dump completes exactly when every field's `Summary` returns, and then holds one line per field, in strictly ascending index order, with that field's summary, and the fold of the ordered hashes |
| FileAnalysis.DumpFile | FlatCrawler.Lib/Analysis/Files/FileAnalysis.cs:139-165 | with dumping off it always returns; with dumping on it returns exactly when the dump file can be created and every `Summary` returns. A result holds the fold of the ordered hashes, the root's field count, the bare file name and the full path. With dumping on there is one line per field in strictly ascending index order, each holding that field's summary |
| FileAnalysis.DumpSettingDoesNotChangeResult | FlatCrawler.Lib/Analysis/Files/FileAnalysis.cs:144-160 | whenever the dump completes, the result is the same whether or not per-file dumping is on |
| FileAnalysis.SameOrderedHashesSameFingerprint | FlatCrawler.Lib/Analysis/Files/FileAnalysis.cs:142-159 | when both dumps complete, the fingerprint depends only on the ordered hash sequence, not on the field indices |
| FileAnalysis.ReadAndDump | FlatCrawler.Lib/Analysis/Files/FileAnalysis.cs:112-128 | data failing the size check is declined, and nothing else is; a result is produced exactly when the size check, the analysis and the dump all succeed, and it is the dump of that analysis |
| FileAnalysis.TryAnalyzeFile | FlatCrawler.Lib/Analysis/Files/FileAnalysis.cs:95-110 | a file that cannot be opened fails, a file longer than the peek size is declined and a short read fails. A result is produced exactly when none of these happens and the data analyses and dumps, and it names the file |
| FileAnalysis.FailedDumpDropsFile | FlatCrawler.Lib/Analysis/Files/FileAnalysis.cs:146-153 | with per-file dumping on, a file whose dump cannot be created, or one of whose observations cannot be summarised, gets no result |
| FileAnalysis.DumpOffIgnoresDump | FlatCrawler.Lib/Analysis/Files/FileAnalysis.cs:157-159 | with per-file dumping off, neither the dump path nor `Summary` affects whether a file is reported or what it reports |
| FileAnalysis.SkippedFileIgnored | FlatCrawler.Lib/Analysis/Files/FileAnalysis.cs:50-55 | with skipping on, a file whose dump exists adds nothing, and the batch's results are the same with or without it, whatever its contents |
| FileAnalysis.Contribution | FlatCrawler.Lib/Analysis/Files/FileAnalysis.cs:50-66 | a file adds one result exactly when it is not skipped and its analysis succeeds, and none otherwise |
| FileAnalysis.AnalyzeAll | FlatCrawler.Lib/Analysis/Files/FileAnalysis.cs:48-67 | at most one result per file, and no result at all exactly when every file is skipped or fails its analysis |
| FileAnalysis.AnalyzedFilesReported | FlatCrawler.Lib/Analysis/Files/FileAnalysis.cs:48-67 | every file that is not skipped and analyses successfully has its result in the batch's results |
| FileAnalysis.ResultsNameTheirFiles | FlatCrawler.Lib/Analysis/Files/FileAnalysis.cs:48-67 | every result is the analysis of some file that was not skipped, and carries that file's path and bare name |
| FileAnalysis.AnalyzeAllAppend | FlatCrawler.Lib/Analysis/Files/FileAnalysis.cs:48-67 | a failure or skip in one file does not affect the others: two batches run in turn give the results of the joined batch |
| FileAnalysis.EntryTotal | FlatCrawler.Lib/Analysis/Files/FileAnalysis.cs:85-87 | any two entries are ordered by file name, then path |
| FileAnalysis.EntryTransitive | FlatCrawler.Lib/Analysis/Files/FileAnalysis.cs:85-87 | the entry order is transitive |
| FileAnalysis.SortEntries | FlatCrawler.Lib/Analysis/Files/FileAnalysis.cs:85-87 | the entries of a bucket are a sorted permutation of its members |
| FileAnalysis.Buckets | FlatCrawler.Lib/Analysis/Files/FileAnalysis.cs:81-87 | one bucket per hash group, in group order, each holding a sorted permutation of the results with that hash |
| FileAnalysis.Export | FlatCrawler.Lib/Analysis/Files/FileAnalysis.cs:74-93 | one section per field-count group, in group order, each holding the buckets of that group's results |
| FileAnalysis.ExportSectionOrder | FlatCrawler.Lib/Analysis/Files/FileAnalysis.cs:77-80 | sections follow the first appearance of each field count, each count once |
| FileAnalysis.ExportBucketOrder | FlatCrawler.Lib/Analysis/Files/FileAnalysis.cs:81-84 | the buckets of a section follow the first appearance of each hash among that count's results |
| FileAnalysis.ExportBucketContents | FlatCrawler.Lib/Analysis/Files/FileAnalysis.cs:81-89 | a bucket's entries are sorted by file name then path, are exactly the results with the section's count and the bucket's hash, and all carry both |
| FileAnalysis.ExportPartition | FlatCrawler.Lib/Analysis/Files/FileAnalysis.cs:77-89 | every result appears in the report exactly as often as it was produced |
| FileAnalysis.IterateAndDump | FlatCrawler.Lib/Analysis/Files/FileAnalysis.cs:36-72 | the loop over the files yields the batch's results, in file order, and the report built from them |

## Left out

- Console output, `PrintTree`/`Print`, `Console.Clear` and the messages of `CrawlLoop` are left out. They are UI; only the result of each command and the state it leaves are modelled.
- The `load` and `dump` commands' file I/O is left out. `dump` writes the history, which is modelled, to a file.
- ConsoleCrawler.ProcessCommandSingle: `load` is modelled as a silent command that changes nothing. It replays a saved file through `ProcessCommand`, and file contents are outside the model.
- ConsoleCrawler.ProcessWithArgs: `hex`/`h` is always `Silent`, and `ro`/`fo`/`eo` are `Silent` when the offset resolves. Hex dumping, and any exception `HexDumper.Dump` might throw, are outside the model.
- The argument parsers `int.Parse`, `int.Parse(..., HexNumber)` and `CommandUtil.GetDualArgs` are parameters of `Env`, with `None` standing for a parse exception.
- The crawler's readers `ReadString`, `ReadObject`, `ReadArrayObject`, `ReadArrayString`, `GetTableStruct` and `GetFieldValue`, and the union payload reader `ReadNode`, are parameters. Their files are not part of this model. The crawler calls them through `Env.readField`, keyed by the reader kind the token selects.
- ConsoleCrawler.GetEntry: how an array builds entry `i` is the parameter `Env.getEntry`, because the array node classes are not part of this model. The per-index cache in front of it is modelled: the array keeps each entry it has built and returns it on later access.
- FlatBufferUnionInfo.ReadUnion: the wrapper's `ReadObject(1, data)` is taken to be `FlatBufferObject.Read(parent, 1, data)`, modelled as `FlatBufferObject.ReadFromField`. `FlatBufferNodeField`, where `ReadObject` is defined, is not part of this model.
- `FlatBufferRoot.Read`, `AnalyzeFields`, `FlatBufferFile.GetIsSizeValid`, `obs.Summary`, `obs.GetHashCode` and `HashCode.Combine` are parameters of `Analyzer`. The real combinator is seeded per process, so hash values stay uninterpreted.
- Directory enumeration and creation, `File.OpenRead`/`Read`, `File.Exists`, writing the dumps and the report, and the default destination via `Assembly.Location` are left out. A file arrives as `FileInput`: its path, whether it opens, its length, the bytes a read returned, whether its dump exists, and whether its dump can be created.
- An exception from opening a file, creating its dump, or a `Summary` ends the file with no result, as a caught exception does. With per-file dumping on, a file can therefore go unreported that would be reported with dumping off. The partial dump file left behind is outside the model, like every other file written.
- FlatBuffer.GetVtableOffset: FlatCrawler passes a third boolean argument whose meaning lies in `FlatBufferNodeField`. That file is not part of this model. The modelled helper follows the FlatBuffers layout.
- `FlatBufferNodeField`'s remaining members, the node classes, and `FlatBufferNodeType` beyond its two fields are left out, because their files are not part of this model.
- Text.ToLowerString: only ASCII letters are lower-cased. `ToLowerInvariant` and `OrdinalIgnoreCase` also fold non-ASCII letters. No recognised token or command word contains one.
- FileAnalysis.EntryLessOrEqual: file names and paths compare by Unicode code point, since a Dafny `char` is a scalar value. This differs from .NET's ordinal UTF-16 order for supplementary characters against U+E000 to U+FFFF. `OrderBy` on strings uses the culture-sensitive default comparer.
- Text.GetFileName: both `/` and `\` count as directory separators, as `Path.GetFileName` does on Windows. On Linux `\` is an ordinary character. A Windows drive-relative path such as `C:file` keeps its `C:` prefix, where .NET drops it.
- FileAnalysis.AnalyzeAllAppend: whether a file's dump exists is fixed in `FileInput` before the run. In FlatCrawler, `File.Exists` is checked after the dumps of earlier files have been written, so a batch that writes the dump a later file looks for is outside the model. The independence of batches holds under this abstraction.
- FileAnalysis.AnalyzeAll: its own contract bounds the number of results and says when there are none. Which results there are is stated by `AnalyzedFilesReported`, `ResultsNameTheirFiles` and `AnalyzeAllAppend`.
- In FlatCrawler, `root` moves to the immediate parent only, not to the tree's root; the model follows the code.
- Floating-point decoding is left out; `Single` and `Double` appear only as codes.
- `OrderBy` is a stable sort and `SortEntries` is an insertion sort. Within a bucket, two entries that tie on file name and path also share the field count and hash, so they are the same record and the order of ties is not observable.

=== FILE: console_crawler.dfy ===
/** The navigation logic of `ConsoleCrawler`: how a command line is split
    and dispatched, how a type token selects a reader, and how the current
    node and the command history change. Nodes live in an arena (a sequence
    indexed by handle); a node's parent and its tracked children are
    handles into it. The readers whose bodies are elsewhere, and the
    argument parsers, are supplied in an `Env`. */
module ConsoleCrawler {
  import opened Wrappers
  import opened Text
  import FlatBuffer
  import TypeCodeUtil

  /** `CrawlResult`. */
  datatype CrawlResult = Silent | Navigate | Error | Unrecognized | Quit

  /** The reader a type token selects in `ReadNode`. The last two carry the
      token on to the typed reader (`GetTableStruct`, `GetFieldValue`). */
  datatype ReaderKind =
    | StringReader        // ReadString
    | ObjectReader        // ReadObject
    | ObjectArrayReader   // ReadArrayObject
    | StringArrayReader   // ReadArrayString
    | StructTableReader(token: string)
    | FieldValueReader(token: string)

  /** The tokens `ReadNode` maps to a dedicated reader. */
  function NamedTokens(): set<string> {
    {"string", "str", "object", "table", "object[]", "string[]"}
  }

  /** The `type switch` of `ReadNode` together with `GetStructureNode`. */
  function Classify(token: string): (k: ReaderKind)
    ensures k == StringReader <==> token == "string" || token == "str"
    ensures k == ObjectReader <==> token == "object"
    ensures k == ObjectArrayReader <==> token == "table" || token == "object[]"
    ensures k == StringArrayReader <==> token == "string[]"
    ensures k.StructTableReader? <==> token !in NamedTokens() && Contains(token, "[]")
    ensures k.FieldValueReader? <==> token !in NamedTokens() && !Contains(token, "[]")
    ensures (k.StructTableReader? || k.FieldValueReader?) ==> k.token == token
  {
    if token == "string" || token == "str" then StringReader
    else if token == "object" then ObjectReader
    else if token == "table" || token == "object[]" then ObjectArrayReader
    else if token == "string[]" then StringArrayReader
    else if Contains(token, "[]") then StructTableReader(token)
    else FieldValueReader(token)
  }

  /** The dedicated readers agree with the type-token parser: each named
      token parses to the array flag and code that match the reader kind it
      selects. */
  lemma ClassifyAgreesWithTypeCodes(token: string)
    requires token in NamedTokens()
    ensures Classify(token) == StringReader ==> TypeCodeUtil.GetTypeCodeTuple(token) == (false, TypeCodeUtil.String)
    ensures Classify(token) == ObjectReader ==> TypeCodeUtil.GetTypeCodeTuple(token) == (false, TypeCodeUtil.Object)
    ensures Classify(token) == ObjectArrayReader ==> TypeCodeUtil.GetTypeCodeTuple(token) == (true, TypeCodeUtil.Object)
    ensures Classify(token) == StringArrayReader ==> TypeCodeUtil.GetTypeCodeTuple(token) == (true, TypeCodeUtil.String)
  {
    if token == "string" {
      StringTokenTuple();
    } else if token == "str" {
      StrTokenTuple();
    } else if token == "object" {
      ObjectTokenTuple();
    } else if token == "table" {
      TableTokenTuple();
    } else if token == "object[]" {
      ObjectArrayTokenTuple();
    } else {
      StringArrayTokenTuple();
    }
  }

  lemma StringTokenTuple()
    ensures TypeCodeUtil.GetTypeCodeTuple("string") == (false, TypeCodeUtil.String)
  {
    TypeCodeUtil.KnownTokenTuple("string");
    TypeCodeUtil.AliasesSound("string", TypeCodeUtil.String);
  }

  lemma StrTokenTuple()
    ensures TypeCodeUtil.GetTypeCodeTuple("str") == (false, TypeCodeUtil.String)
  {
    TypeCodeUtil.KnownTokenTuple("str");
    TypeCodeUtil.AliasesSound("str", TypeCodeUtil.String);
  }

  lemma ObjectTokenTuple()
    ensures TypeCodeUtil.GetTypeCodeTuple("object") == (false, TypeCodeUtil.Object)
  {
    TypeCodeUtil.KnownTokenTuple("object");
    TypeCodeUtil.AliasesSound("object", TypeCodeUtil.Object);
  }

  lemma TableTokenTuple()
    ensures TypeCodeUtil.GetTypeCodeTuple("table") == (true, TypeCodeUtil.Object)
  {
    TypeCodeUtil.KnownTokenTuple("table");
    assert TypeCodeUtil.IsTableWord("table");
  }

  lemma ObjectArrayTokenTuple()
    ensures TypeCodeUtil.GetTypeCodeTuple("object[]") == (true, TypeCodeUtil.Object)
  {
    var s := "object";
    TypeCodeUtil.AliasesSound(s, TypeCodeUtil.Object);
    assert "object[]" == s + "[]";
    TypeCodeUtil.ArrayTokenTuple(s);
  }

  lemma StringArrayTokenTuple()
    ensures TypeCodeUtil.GetTypeCodeTuple("string[]") == (true, TypeCodeUtil.String)
  {
    var s := "string";
    TypeCodeUtil.AliasesSound(s, TypeCodeUtil.String);
    assert "string[]" == s + "[]";
    TypeCodeUtil.ArrayTokenTuple(s);
  }

  /** The kind of node a handle designates. */
  datatype Shape =
    | TableNode(table: FlatBuffer.FieldTable)  // FlatBufferNodeField / IFieldNode
    | ArrayNode                                // IArrayNode
    | LeafNode                                 // strings and scalar values

  /** A node as a reader constructs it. */
  datatype Child = Child(offset: int, name: string, shape: Shape)

  /** A node in the arena: what the reader built, its parent's handle, and
      the bookkeeping recorded on it. A table node keeps a hint and a
      tracked child per field; an array node keeps its cached entry per
      index in `children`. */
  datatype NodeRec = NodeRec(
    offset: int,
    name: string,
    shape: Shape,
    parent: Option<nat>,
    hints: map<int, string>,
    children: map<int, nat>)
  {
    /** The node as its reader built it, without the bookkeeping. */
    function Built(): Child {
      Child(offset, name, shape)
    }
  }

  type Arena = seq<NodeRec>

  /** The collaborators the navigation calls but does not define. */
  datatype Env = Env(
    data: FlatBuffer.Buffer,
    readField: (FlatBuffer.FieldTable, int, ReaderKind) -> Result<Child, FlatBuffer.Error>,
    getEntry: (Child, int) -> Result<Child, FlatBuffer.Error>,  // builds an array's entry
    parseInt: string -> Option<int>,                // int.Parse
    parseHex: string -> Option<int>,                // int.Parse(args.Replace("0x", ""), HexNumber)
    dualArgs: string -> Option<(int, string)>)      // CommandUtil.GetDualArgs

  /** Every handle in use designates a node, parents precede children, and
      every tracked child or cached entry has its owner as parent. */
  predicate WellFormed(arena: Arena, current: nat) {
    && current < |arena|
    && forall h :: 0 <= h < |arena| ==>
         && (arena[h].parent.Some? ==> arena[h].parent.value < h)
         && forall i :: i in arena[h].children ==>
              arena[h].children[i] < |arena| && arena[arena[h].children[i]].parent == Some(h)
  }

  function Leaf(c: Child, parent: nat): NodeRec {
    NodeRec(c.offset, c.name, c.shape, Some(parent), map[], map[])
  }

  /** Appends a node a reader built as a child of `current`, recorded for
      `index`, and sets `current`'s hints to `hints`. */
  function AddChild(arena: Arena, current: nat, index: int, hints: map<int, string>, c: Child): (r: Arena)
    requires WellFormed(arena, current)
    ensures |r| == |arena| + 1 && WellFormed(r, |arena|)
    ensures r[|arena|] == Leaf(c, current)
    ensures r[current] == arena[current].(hints := hints, children := arena[current].children[index := |arena|])
    ensures forall k :: 0 <= k < |arena| && k != current ==> r[k] == arena[k]
  {
    var node := arena[current];
    var r := arena[current := node.(hints := hints, children := node.children[index := |arena|])] + [Leaf(c, current)];
    assert WellFormed(r, |arena|) by {
      forall k | 0 <= k < |r|
        ensures r[k].parent.Some? ==> r[k].parent.value < k
        ensures forall i :: i in r[k].children ==> r[k].children[i] < |r| && r[r[k].children[i]].parent == Some(k)
      {
        if k < |arena| {
          forall i | i in r[k].children
            ensures r[k].children[i] < |r| && r[r[k].children[i]].parent == Some(k)
          {
            if k != current || i != index {
              var h := arena[k].children[i];
              assert r[k].children[i] == h;
              assert r[h].parent == arena[h].parent;
            }
          }
        }
      }
    }
    r
  }

  /** `IArrayNode.GetEntry(i)`: an entry is built on first access and
      cached for its index, so a later access returns the same node. */
  function GetEntry(env: Env, arena: Arena, current: nat, index: int): (r: Result<(Arena, nat), FlatBuffer.Error>)
    requires WellFormed(arena, current)
    ensures r.Ok? ==> var (arena', h) := r.value;
      && WellFormed(arena', h) && |arena'| >= |arena|
      && arena'[h].parent == Some(current)
      && arena'[current].Built() == arena[current].Built() && arena'[current].parent == arena[current].parent
      && arena'[current].hints == arena[current].hints
      && index in arena'[current].children && arena'[current].children[index] == h
      && forall k :: 0 <= k < |arena| && k != current ==> arena'[k] == arena[k]
    ensures index in arena[current].children ==> r == Ok((arena, arena[current].children[index]))
    ensures index !in arena[current].children ==>
      match env.getEntry(arena[current].Built(), index)
      case Err(e) => r == Err(e)
      case Ok(c) =>
        && r.Ok? && r.value.1 == |arena| && |r.value.0| == |arena| + 1
        && r.value.0[|arena|] == Leaf(c, current)
        && r.value.0[current] == arena[current].(children := arena[current].children[index := |arena|])
  {
    var node := arena[current];
    if index in node.children then Ok((arena, node.children[index]))
    else
      var c :- env.getEntry(node.Built(), index);
      Ok((AddChild(arena, current, index, node.hints, c), |arena|))
  }

  /** An entry, once read, is cached: reading it again from the same array
      returns the same node and changes nothing. */
  lemma EntryCached(env: Env, arena: Arena, current: nat, index: int)
    requires WellFormed(arena, current) && GetEntry(env, arena, current, index).Ok?
    ensures var (arena', h) := GetEntry(env, arena, current, index).value;
      WellFormed(arena', current) && GetEntry(env, arena', current, index) == Ok((arena', h))
  {
  }

  /** Reading one entry keeps every other entry the array has cached, each
      still designating the node it did before. */
  lemma GetEntryKeepsOtherEntries(env: Env, arena: Arena, current: nat, index: int, j: int)
    requires WellFormed(arena, current) && GetEntry(env, arena, current, index).Ok?
    requires j in arena[current].children
    ensures var (arena', _) := GetEntry(env, arena, current, index).value;
      && j in arena'[current].children
      && arena'[current].children[j] == arena[current].children[j]
      && arena'[arena[current].children[j]] == arena[arena[current].children[j]]
  {
  }

  /** `ReadNode(node, fieldIndex, type, data)`: an array node yields its
      (cached) entry whatever the token; a table node reads with the reader
      the token selects and, only once that read has succeeded, records the
      token as the field's hint and the new node as the field's tracked
      child. */
  function ReadNode(env: Env, arena: Arena, current: nat, fieldIndex: int, token: string)
    : (r: Result<(Arena, nat), FlatBuffer.Error>)
    requires WellFormed(arena, current)
    ensures r.Ok? ==> var (arena', h) := r.value;
      && WellFormed(arena', h) && |arena'| >= |arena|
      && arena'[h].parent == Some(current)
      && arena'[current].Built() == arena[current].Built() && arena'[current].parent == arena[current].parent
      && forall k :: 0 <= k < |arena| && k != current ==> arena'[k] == arena[k]
    ensures arena[current].shape.LeafNode? ==> r == Err(FlatBuffer.NotNavigable)
    ensures arena[current].shape.ArrayNode? ==> r == GetEntry(env, arena, current, fieldIndex)
    ensures arena[current].shape.TableNode? ==>
      match env.readField(arena[current].shape.table, fieldIndex, Classify(token))
      case Err(e) => r == Err(e)
      case Ok(c) =>
        && r.Ok? && r.value.1 == |arena| && |r.value.0| == |arena| + 1
        && r.value.0[|arena|] == Leaf(c, current)
        && r.value.0[current] == arena[current].(
             hints := arena[current].hints[fieldIndex := token],
             children := arena[current].children[fieldIndex := |arena|])
  {
    var node := arena[current];
    match node.shape
    case ArrayNode =>
      GetEntry(env, arena, current, fieldIndex)
    case TableNode(table) =>
      var c :- env.readField(table, fieldIndex, Classify(token));
      Ok((AddChild(arena, current, fieldIndex, node.hints[fieldIndex := token], c), |arena|))
    case LeafNode =>
      Err(FlatBuffer.NotNavigable)
  }

  /** On an array node the type token plays no part. */
  lemma ArrayReadIgnoresToken(env: Env, arena: Arena, current: nat, fieldIndex: int, t1: string, t2: string)
    requires WellFormed(arena, current) && arena[current].shape.ArrayNode?
    ensures ReadNode(env, arena, current, fieldIndex, t1) == ReadNode(env, arena, current, fieldIndex, t2)
  {
  }

  /** The result of one command and the position it leaves. */
  datatype Outcome = Outcome(result: CrawlResult, arena: Arena, current: nat)

  function Stay(result: CrawlResult, arena: Arena, current: nat): Outcome {
    Outcome(result, arena, current)
  }

  /** The one-word commands that only print or touch files. */
  function SilentWords(): set<string> {
    {"tree", "load", "dump", "clear", "p", "info", "hex", "h"}
  }

  /** `ProcessCommandSingle`, for an already lower-cased one-word command.
      `load` replays a saved file and is not modelled (see README). */
  function ProcessCommandSingle(arena: Arena, current: nat, cmd: string): (r: Outcome)
    requires WellFormed(arena, current)
    ensures WellFormed(r.arena, r.current) && r.arena == arena
    ensures cmd == "up" ==>
      if arena[current].parent.None? then r == Stay(Silent, arena, current)
      else r == Outcome(Navigate, arena, arena[current].parent.value)
    ensures cmd == "root" ==> (r.result == Navigate
      && r.current == (if arena[current].parent.Some? then arena[current].parent.value else current))
    ensures cmd == "quit" <==> r.result == Quit
    ensures r.result != Navigate ==> r.current == current
    ensures r.result == Navigate ==> cmd in {"up", "root"}
    ensures cmd in SilentWords() ==> r == Stay(Silent, arena, current)
    ensures cmd !in SilentWords() + {"quit", "up", "root"} ==> r == Stay(Unrecognized, arena, current)
  {
    if cmd in SilentWords() then Stay(Silent, arena, current)
    else if cmd == "quit" then Stay(Quit, arena, current)
    else if cmd == "up" then
      match arena[current].parent
      case None => Stay(Silent, arena, current)
      case Some(up) => Outcome(Navigate, arena, up)
    else if cmd == "root" then
      match arena[current].parent
      case None => Outcome(Navigate, arena, current)
      case Some(p) => Outcome(Navigate, arena, p)
    else Stay(Unrecognized, arena, current)
  }

  /** The `switch (c)` of `ProcessCommand` for a command word with arguments.
      Every exception `ProcessCommand` catches becomes `Error` with the
      position unchanged. */
  function ProcessWithArgs(env: Env, arena: Arena, current: nat, c: string, args: string): (r: Outcome)
    requires WellFormed(arena, current)
    ensures WellFormed(r.arena, r.current)
    ensures r.result in {Error, Unrecognized, Quit} ==> r.arena == arena && r.current == current
    ensures r.result != Quit
    ensures c !in {"ro", "fo", "eo", "rf", "hex", "h"} ==> r == Stay(Unrecognized, arena, current)
    ensures r.result == Navigate ==> c == "rf"
    ensures c == "rf" && arena[current].shape.LeafNode? ==> r == Stay(Silent, arena, current)
    ensures c == "rf" && !arena[current].shape.LeafNode? && ' ' in args ==> r == NavigateTo(env, arena, current, args)
    ensures c == "rf" && arena[current].shape.TableNode? && ' ' !in args ==>
      && r.arena == arena
      && (r.result == Silent <==> env.parseInt(args).Some? && env.parseInt(args).value in arena[current].children)
      && (r.result == Silent ==> r.current == arena[current].children[env.parseInt(args).value])
      && r.result in {Silent, Error}
    ensures c == "rf" && arena[current].shape.ArrayNode? && ' ' !in args ==>
      match env.parseInt(args)
      case None => r == Stay(Error, arena, current)
      case Some(i) =>
        match GetEntry(env, arena, current, i)
        case Err(_) => r == Stay(Error, arena, current)
        case Ok((arena', h)) => r == Outcome(Navigate, arena', h)
    ensures c in {"ro", "fo"} ==> r.arena == arena && r.current == current
    ensures c == "eo" ==> r.current == current
    ensures c == "ro" ==>
      if !arena[current].shape.TableNode? then r.result == Unrecognized
      else r.result == (if env.parseHex(args).Some?
                           && FlatBuffer.GetReferenceOffset(env.data, arena[current].shape.table, env.parseHex(args).value).Ok?
                        then Silent else Error)
    ensures c == "fo" ==>
      if !arena[current].shape.TableNode? then r.result == Unrecognized
      else r.result == (if env.parseHex(args).Some?
                           && FlatBuffer.GetFieldOffset(arena[current].shape.table, env.parseHex(args).value).Ok?
                        then Silent else Error)
    ensures c == "eo" ==>
      if !arena[current].shape.ArrayNode? then r.result == Unrecognized
      else if env.parseHex(args).Some? && GetEntry(env, arena, current, env.parseHex(args).value).Ok?
      then r == Stay(Silent, GetEntry(env, arena, current, env.parseHex(args).value).value.0, current)
      else r == Stay(Error, arena, current)
    ensures c in {"hex", "h"} ==> r == Stay(Silent, arena, current)
  {
    var node := arena[current];
    if c == "ro" && node.shape.TableNode? then
      match env.parseHex(args)
      case None => Stay(Error, arena, current)
      case Some(i) =>
        if FlatBuffer.GetReferenceOffset(env.data, node.shape.table, i).Ok? then Stay(Silent, arena, current)
        else Stay(Error, arena, current)
    else if c == "fo" && node.shape.TableNode? then
      match env.parseHex(args)
      case None => Stay(Error, arena, current)
      case Some(i) =>
        if FlatBuffer.GetFieldOffset(node.shape.table, i).Ok? then Stay(Silent, arena, current)
        else Stay(Error, arena, current)
    else if c == "eo" && node.shape.ArrayNode? then
      match env.parseHex(args)
      case None => Stay(Error, arena, current)
      case Some(i) =>
        match GetEntry(env, arena, current, i)
        case Err(_) => Stay(Error, arena, current)
        case Ok((arena', _)) => Stay(Silent, arena', current)
    else if c == "rf" && node.shape.TableNode? then
      if ' ' !in args then
        match env.parseInt(args)
        case None => Stay(Error, arena, current)
        case Some(i) =>
          if i in node.children then Outcome(Silent, arena, node.children[i])
          else Stay(Error, arena, current)
      else NavigateTo(env, arena, current, args)
    else if c == "rf" && node.shape.ArrayNode? then
      if ' ' !in args then
        match env.parseInt(args)
        case None => Stay(Error, arena, current)
        case Some(i) =>
          match GetEntry(env, arena, current, i)
          case Err(_) => Stay(Error, arena, current)
          case Ok((arena', h)) => Outcome(Navigate, arena', h)
      else NavigateTo(env, arena, current, args)
    else if c == "rf" then Stay(Silent, arena, current)
    else if c == "hex" || c == "h" then Stay(Silent, arena, current)
    else Stay(Unrecognized, arena, current)
  }

  /** `rf <index> <type>`: read with the lower-cased type token. */
  function NavigateTo(env: Env, arena: Arena, current: nat, args: string): (r: Outcome)
    requires WellFormed(arena, current)
    ensures WellFormed(r.arena, r.current)
    ensures r.result == Error || r.result == Navigate
    ensures r.result == Error ==> r.arena == arena && r.current == current
    ensures r.result == Navigate ==>
      && env.dualArgs(args).Some?
      && var (i, t) := env.dualArgs(args).value;
         ReadNode(env, arena, current, i, ToLowerString(t)) == Ok((r.arena, r.current))
    ensures env.dualArgs(args).Some? ==> var (i, t) := env.dualArgs(args).value;
      ReadNode(env, arena, current, i, ToLowerString(t)).Ok? ==> r.result == Navigate
    ensures env.dualArgs(args).None? ==> r == Stay(Error, arena, current)
  {
    match env.dualArgs(args)
    case None => Stay(Error, arena, current)
    case Some((i, t)) =>
      match ReadNode(env, arena, current, i, ToLowerString(t))
      case Err(_) => Stay(Error, arena, current)
      case Ok((arena', h)) => Outcome(Navigate, arena', h)
  }

  /** `ProcessCommand`: a command without a space is a lower-cased one-word
      command; otherwise the word before the first space is lower-cased and
      must not be blank, and the rest is its argument text. */
  function ProcessCommand(env: Env, arena: Arena, current: nat, cmd: string): (r: Outcome)
    requires WellFormed(arena, current)
    ensures WellFormed(r.arena, r.current)
    ensures r.result in {Error, Unrecognized, Quit} ==> r.arena == arena && r.current == current
    ensures ' ' !in cmd ==> r == ProcessCommandSingle(arena, current, ToLowerString(cmd))
    ensures ' ' in cmd ==> var sp := IndexOf(cmd, ' ').value;
      if IsNullOrWhiteSpace(ToLowerString(cmd[..sp])) then r == Stay(Unrecognized, arena, current)
      else r == ProcessWithArgs(env, arena, current, ToLowerString(cmd[..sp]), cmd[sp + 1..])
  {
    match IndexOf(cmd, ' ')
    case None => ProcessCommandSingle(arena, current, ToLowerString(cmd))
    case Some(sp) =>
      var c := ToLowerString(cmd[..sp]);
      if IsNullOrWhiteSpace(c) then Stay(Unrecognized, arena, current)
      else ProcessWithArgs(env, arena, current, c, cmd[sp + 1..])
  }

  /** The crawler's session: the node arena, the current node, and the
      commands kept for `dump`. */
  datatype Session = Session(arena: Arena, current: nat, history: seq<string>)

  predicate ValidSession(s: Session) {
    WellFormed(s.arena, s.current)
  }

  /** `CrawlLoop` starts at the root node, which has no parent. */
  function Start(root: Child): (s: Session)
    ensures ValidSession(s) && s.history == []
    ensures s.arena[s.current].parent.None?
  {
    Session([NodeRec(root.offset, root.name, root.shape, None, map[], map[])], 0, [])
  }

  /** Whether `CrawlLoop` adds a command to the history. */
  predicate Recorded(result: CrawlResult) {
    result !in {Silent, Error, Unrecognized, Quit}
  }

  /** One iteration of `CrawlLoop`. */
  function Step(env: Env, s: Session, cmd: string): (r: (CrawlResult, Session))
    requires ValidSession(s)
    ensures ValidSession(r.1)
    ensures r.1.history == if Recorded(r.0) then s.history + [cmd] else s.history
    ensures r.0 in {Error, Unrecognized, Quit} ==> r.1.arena == s.arena && r.1.current == s.current
    ensures var o := ProcessCommand(env, s.arena, s.current, cmd);
      r.0 == o.result && r.1.arena == o.arena && r.1.current == o.current
  {
    var o := ProcessCommand(env, s.arena, s.current, cmd);
    var history := if Recorded(o.result) then s.history + [cmd] else s.history;
    (o.result, Session(o.arena, o.current, history))
  }

  /** `CrawlLoop` over the lines the operator types, until `quit` or the end
      of input. */
  function Crawl(env: Env, s: Session, lines: seq<string>): (r: Session)
    requires ValidSession(s)
    ensures ValidSession(r)
    ensures |s.history| <= |r.history| && r.history[..|s.history|] == s.history
    ensures forall k :: |s.history| <= k < |r.history| ==> r.history[k] in lines
    decreases |lines|
  {
    if |lines| == 0 then s
    else
      var (result, s') := Step(env, s, lines[0]);
      if result == Quit then s'
      else
        var r := Crawl(env, s', lines[1..]);
        HistoryExtends(s.history, s'.history, r.history, lines);
        r
  }

  /** The result of each line `CrawlLoop` processes: one per line, up to and
      including the first `Quit`, after which no line is read. */
  function Results(env: Env, s: Session, lines: seq<string>): (rs: seq<CrawlResult>)
    requires ValidSession(s)
    ensures |rs| <= |lines|
    ensures |lines| > 0 ==> |rs| > 0 && rs[0] == Step(env, s, lines[0]).0
    decreases |lines|
  {
    if |lines| == 0 then []
    else
      var st := Step(env, s, lines[0]);
      if st.0 == Quit then [Quit] else [st.0] + Results(env, st.1, lines[1..])
  }

  /** Every line is processed until the first `Quit`, and none after it. */
  lemma {:induction false} ResultsEndAtFirstQuit(env: Env, s: Session, lines: seq<string>)
    requires ValidSession(s)
    ensures var rs := Results(env, s, lines);
      && (forall k :: 0 <= k < |rs| - 1 ==> rs[k] != Quit)
      && (|rs| < |lines| ==> |rs| > 0 && rs[|rs| - 1] == Quit)
    decreases |lines|
  {
    if |lines| > 0 {
      var st := Step(env, s, lines[0]);
      if st.0 == Quit {
        CrawlQuitUnfold(env, s, lines);
      } else {
        var rest := Results(env, st.1, lines[1..]);
        ResultsEndAtFirstQuit(env, st.1, lines[1..]);
        CrawlUnfold(env, s, lines);
        QuitOnlyLast(st.0, rest, |lines| - 1);
      }
    }
  }

  lemma QuitOnlyLast(r: CrawlResult, rest: seq<CrawlResult>, n: nat)
    requires r != Quit
    requires forall k :: 0 <= k < |rest| - 1 ==> rest[k] != Quit
    requires |rest| < n ==> |rest| > 0 && rest[|rest| - 1] == Quit
    ensures var rs := [r] + rest;
      && (forall k :: 0 <= k < |rs| - 1 ==> rs[k] != Quit)
      && (|rs| < n + 1 ==> |rs| > 0 && rs[|rs| - 1] == Quit)
  {
    assert forall k :: 1 <= k < |rest| + 1 ==> ([r] + rest)[k] == rest[k - 1];
  }

  /** The lines whose result `CrawlLoop` records, in input order. */
  function Kept(lines: seq<string>, rs: seq<CrawlResult>): (h: seq<string>)
    requires |rs| <= |lines|
    ensures |h| <= |rs|
    ensures forall k :: 0 <= k < |h| ==> h[k] in lines[..|rs|]
    decreases |rs|
  {
    if |rs| == 0 then []
    else
      var rest := Kept(lines[1..], rs[1..]);
      assert forall k :: 0 <= k < |rest| ==> rest[k] in lines[..|rs|] by {
        assert lines[1..][..|rs| - 1] == lines[1..|rs|];
      }
      (if Recorded(rs[0]) then [lines[0]] else []) + rest
  }

  /** The history gains exactly the lines whose command was recorded, in the
      order they were typed, and none after the first `quit`. */
  lemma {:induction false} CrawlHistory(env: Env, s: Session, lines: seq<string>)
    requires ValidSession(s)
    ensures Crawl(env, s, lines).history == s.history + Kept(lines, Results(env, s, lines))
    decreases |lines|
  {
    if |lines| > 0 {
      var st := Step(env, s, lines[0]);
      if st.0 == Quit {
        CrawlQuitUnfold(env, s, lines);
        KeptCons(lines, [Quit]);
      } else {
        CrawlHistory(env, st.1, lines[1..]);
        CrawlHistoryStep(env, s, lines);
      }
    }
  }

  lemma CrawlHistoryStep(env: Env, s: Session, lines: seq<string>)
    requires ValidSession(s) && |lines| > 0 && Step(env, s, lines[0]).0 != Quit
    requires var s' := Step(env, s, lines[0]).1;
      Crawl(env, s', lines[1..]).history == s'.history + Kept(lines[1..], Results(env, s', lines[1..]))
    ensures Crawl(env, s, lines).history == s.history + Kept(lines, Results(env, s, lines))
  {
    var st := Step(env, s, lines[0]);
    CrawlUnfold(env, s, lines);
    var rs := Results(env, s, lines);
    var rest := Results(env, st.1, lines[1..]);
    var kept := Kept(lines[1..], rest);
    assert rs[0] == st.0 && rs[1..] == rest;
    KeptCons(lines, rs);
    HistoryAppend(s.history, st.1.history, lines[0], Recorded(st.0), kept);
  }

  lemma CrawlQuitUnfold(env: Env, s: Session, lines: seq<string>)
    requires ValidSession(s) && |lines| > 0 && Step(env, s, lines[0]).0 == Quit
    ensures Crawl(env, s, lines) == Step(env, s, lines[0]).1
    ensures Results(env, s, lines) == [Quit]
  {
  }

  lemma HistoryAppend(h: seq<string>, h': seq<string>, line: string, recorded: bool, kept: seq<string>)
    requires h' == if recorded then h + [line] else h
    ensures h' + kept == h + ((if recorded then [line] else []) + kept)
  {
  }

  lemma CrawlUnfold(env: Env, s: Session, lines: seq<string>)
    requires ValidSession(s) && |lines| > 0 && Step(env, s, lines[0]).0 != Quit
    ensures var st := Step(env, s, lines[0]);
      && Crawl(env, s, lines) == Crawl(env, st.1, lines[1..])
      && Results(env, s, lines) == [st.0] + Results(env, st.1, lines[1..])
  {
  }

  lemma KeptCons(lines: seq<string>, rs: seq<CrawlResult>)
    requires 0 < |rs| <= |lines|
    ensures Kept(lines, rs) == (if Recorded(rs[0]) then [lines[0]] else []) + Kept(lines[1..], rs[1..])
  {
  }

  /** Whether some line of `lines` ends the session. */
  predicate QuitsOn(env: Env, s: Session, lines: seq<string>)
    requires ValidSession(s)
  {
    Quit in Results(env, s, lines)
  }

  /** `CrawlLoop` stops at the first `quit`: once a prefix of the input has
      ended the session, whatever follows is never read. */
  lemma {:induction false} CrawlStopsAtQuit(env: Env, s: Session, lines: seq<string>, tail: seq<string>)
    requires ValidSession(s) && QuitsOn(env, s, lines)
    ensures Results(env, s, lines + tail) == Results(env, s, lines)
    ensures Crawl(env, s, lines + tail) == Crawl(env, s, lines)
    decreases |lines|
  {
    var line, rest := lines[0], lines[1..];
    SplitFront(lines, tail);
    CrawlCons(env, s, line, rest);
    CrawlCons(env, s, line, rest + tail);
    QuitsOnCons(env, s, line, rest);
    var st := Step(env, s, line);
    if st.0 != Quit {
      CrawlStopsAtQuit(env, st.1, rest, tail);
    }
  }

  lemma SplitFront<T>(xs: seq<T>, tail: seq<T>)
    requires |xs| > 0
    ensures xs == [xs[0]] + xs[1..] && xs + tail == [xs[0]] + (xs[1..] + tail)
  {
  }

  lemma QuitsOnCons(env: Env, s: Session, line: string, rest: seq<string>)
    requires ValidSession(s)
    ensures var st := Step(env, s, line);
      QuitsOn(env, s, [line] + rest) <==> st.0 == Quit || QuitsOn(env, st.1, rest)
  {
    CrawlCons(env, s, line, rest);
  }

  /** Without a `quit`, running two stretches of input one after the other is
      running their concatenation. */
  lemma {:induction false} CrawlAppend(env: Env, s: Session, lines: seq<string>, tail: seq<string>)
    requires ValidSession(s) && !QuitsOn(env, s, lines)
    ensures Crawl(env, s, lines + tail) == Crawl(env, Crawl(env, s, lines), tail)
    decreases |lines|
  {
    if |lines| == 0 {
      assert lines + tail == tail;
    } else {
      var line, rest := lines[0], lines[1..];
      SplitFront(lines, tail);
      CrawlCons(env, s, line, rest);
      CrawlCons(env, s, line, rest + tail);
      QuitsOnCons(env, s, line, rest);
      var st := Step(env, s, line);
      CrawlAppend(env, st.1, rest, tail);
    }
  }

  /** One line taken off the front of the input. */
  lemma CrawlCons(env: Env, s: Session, line: string, rest: seq<string>)
    requires ValidSession(s)
    ensures var st := Step(env, s, line);
      && Crawl(env, s, [line] + rest) == (if st.0 == Quit then st.1 else Crawl(env, st.1, rest))
      && Results(env, s, [line] + rest) == (if st.0 == Quit then [Quit] else [st.0] + Results(env, st.1, rest))
  {
    assert ([line] + rest)[0] == line;
    assert ([line] + rest)[1..] == rest;
  }

  lemma HistoryExtends(h0: seq<string>, h1: seq<string>, h2: seq<string>, lines: seq<string>)
    requires |lines| > 0 && (h1 == h0 || h1 == h0 + [lines[0]])
    requires |h1| <= |h2| && h2[..|h1|] == h1
    requires forall k :: |h1| <= k < |h2| ==> h2[k] in lines[1..]
    ensures |h0| <= |h2| && h2[..|h0|] == h0
    ensures forall k :: |h0| <= k < |h2| ==> h2[k] in lines
  {
    assert h2[..|h0|] == h2[..|h1|][..|h0|];
    forall k | |h0| <= k < |h2| ensures h2[k] in lines {
      if k < |h1| {
        assert h2[k] == h1[k] == lines[0];
      } else {
        assert h2[k] in lines[1..];
      }
    }
  }

  /** `up` moves to the parent, or stays put (silently) at a node without one;
      the command word is case-insensitive. */
  lemma UpMovesToParent(env: Env, arena: Arena, current: nat, cmd: string)
    requires WellFormed(arena, current)
    requires ' ' !in cmd && ToLowerString(cmd) == "up"
    ensures var r := ProcessCommand(env, arena, current, cmd);
      && r.arena == arena
      && (arena[current].parent.None? ==> r.result == Silent && r.current == current)
      && (arena[current].parent.Some? ==> r.result == Navigate && r.current == arena[current].parent.value)
  {
  }

  /** `root` moves at most one level: to the parent when there is one. */
  lemma RootMovesAtMostOneLevel(env: Env, arena: Arena, current: nat, cmd: string)
    requires WellFormed(arena, current)
    requires ' ' !in cmd && ToLowerString(cmd) == "root"
    ensures var r := ProcessCommand(env, arena, current, cmd);
      && r.result == Navigate && r.arena == arena
      && (r.current == current || Some(r.current) == arena[current].parent)
      && (arena[current].parent.Some? ==> r.current != current)
  {
  }

  /** A command whose word before the first space is blank is unrecognised. */
  lemma BlankCommandWordUnrecognized(env: Env, arena: Arena, current: nat, cmd: string)
    requires WellFormed(arena, current)
    requires |cmd| > 0 && cmd[0] == ' '
    ensures ProcessCommand(env, arena, current, cmd) == Stay(Unrecognized, arena, current)
  {
    assert ToLowerString(cmd[..0]) == "";
  }

  /** After `rf i t` has read a field of a table node, going back `up` and
      navigating with `rf i` returns to the very node that was read, not a
      fresh decode. */
  lemma RenavigationReturnsTrackedChild(env: Env, arena: Arena, current: nat, args: string, back: string)
    requires WellFormed(arena, current) && arena[current].shape.TableNode?
    requires NavigateTo(env, arena, current, args).result == Navigate
    requires ' ' !in back && env.parseInt(back) == Some(env.dualArgs(args).value.0)
    ensures var o := NavigateTo(env, arena, current, args);
      var up := ProcessCommandSingle(o.arena, o.current, "up");
      && up == Outcome(Navigate, o.arena, current)
      && ProcessWithArgs(env, o.arena, current, "rf", back) == Outcome(Silent, o.arena, o.current)
  {
    var o := NavigateTo(env, arena, current, args);
    var (i, t) := env.dualArgs(args).value;
    assert ReadNode(env, arena, current, i, ToLowerString(t)) == Ok((o.arena, o.current));
    assert o.arena[current].children[i] == o.current;
  }

  /** `rf i` on an array whose entry `i` is already cached returns that very
      node and leaves the arena as it is, so the hints and tracked children
      recorded on the entry since it was first read are still there. */
  lemma CachedEntryKeepsBookkeeping(env: Env, arena: Arena, current: nat, back: string)
    requires WellFormed(arena, current) && arena[current].shape.ArrayNode?
    requires ' ' !in back && env.parseInt(back).Some? && env.parseInt(back).value in arena[current].children
    ensures ProcessWithArgs(env, arena, current, "rf", back)
      == Outcome(Navigate, arena, arena[current].children[env.parseInt(back).value])
  {
  }

  /** After `rf i` has read entry `i` of an array node, going back `up` and
      reading `rf i` again returns to the very same node. */
  lemma ArrayRenavigationReturnsCachedEntry(env: Env, arena: Arena, current: nat, args: string)
    requires WellFormed(arena, current) && arena[current].shape.ArrayNode?
    requires ' ' !in args && ProcessWithArgs(env, arena, current, "rf", args).result == Navigate
    ensures var o := ProcessWithArgs(env, arena, current, "rf", args);
      && ProcessCommandSingle(o.arena, o.current, "up") == Outcome(Navigate, o.arena, current)
      && ProcessWithArgs(env, o.arena, current, "rf", args) == o
  {
  }

  /** A field's hint and tracked child are recorded only by a successful read,
      and then hold exactly the token used and the node returned. */
  lemma HintRecordedOnlyOnSuccess(env: Env, arena: Arena, current: nat, fieldIndex: int, token: string)
    requires WellFormed(arena, current) && arena[current].shape.TableNode?
    ensures var r := ReadNode(env, arena, current, fieldIndex, token);
      && (r.Ok? <==> env.readField(arena[current].shape.table, fieldIndex, Classify(token)).Ok?)
      && (r.Ok? ==> r.value.0[current].hints[fieldIndex] == token
                    && r.value.0[current].children[fieldIndex] == r.value.1
                    && r.value.0[r.value.1].parent == Some(current))
  {
  }
}

=== FILE: file_analysis.dfy ===
/** `FileAnalysis`: which files of a batch are analysed, the fingerprint of
    an analysed file, and the grouped report. The file system, the FlatBuffers
    root analysis and the hash primitives are supplied by the caller. */
module FileAnalysis {
  import opened Wrappers
  import opened Text
  import opened FlatBuffer
  import opened Grouping

  /** The parts of `FileAnalysisSettings` the logic consults. */
  datatype Settings = Settings(
    maxPeekSize: nat,
    skipAnalysisIfSchemaDumpExists: bool,
    dumpIndividualSchemaAnalysis: bool)

  /** One enumerated file: its path, whether `File.OpenRead` succeeds, its
      length on disk, the bytes a read of `min(peek size, length)` bytes
      returned, whether its per-file dump already exists, and whether
      `File.CreateText` succeeds on the dump's path. */
  datatype FileInput = FileInput(
    path: string,
    opens: bool,
    length: nat,
    bytesRead: Buffer,
    dumpExists: bool,
    dumpWritable: bool)

  /** The root node's field count and the observations `AnalyzeFields` made,
      keyed by field index. */
  datatype FieldAnalysis<O> = FieldAnalysis(fieldCount: nat, fields: map<int, O>)

  /** The collaborators whose bodies are outside this model. */
  datatype Analyzer<!O> = Analyzer(
    isSizeValid: Buffer -> bool,                              // FlatBufferFile.GetIsSizeValid
    analyze: Buffer -> Result<FieldAnalysis<O>, string>,      // FlatBufferRoot.Read(0, data).AnalyzeFields(data)
    summary: (int, O) -> Option<string>,                      // obs.Summary(node, index, data); None: it throws
    obsHash: O -> int,                                        // obs.GetHashCode()
    combine: (int, int) -> int)                               // HashCode.Combine

  /** `FileAnalysisResult`. */
  datatype AnalysisResult = AnalysisResult(fieldCount: nat, hash: int, fileName: string, path: string)

  /** One line of a per-file dump: `[index] summary`. */
  datatype DumpLine = DumpLine(index: int, summary: string)

  /** What `TryAnalyzeFile` does: returns `true` having produced a result,
      returns `false`, or throws. */
  datatype Attempt =
    | Analyzed(result: AnalysisResult, dump: seq<DumpLine>)
    | Declined
    | Failed

  /* ---------------- field order ---------------- */

  lemma NonEmptyHasElement(s: set<int>)
    requires s != {}
    ensures exists y :: y in s
  {
    if forall y :: y !in s {
      assert false;
    }
  }

  lemma {:induction false} HasMinimum(s: set<int>)
    requires s != {}
    ensures exists m :: m in s && forall k :: k in s ==> m <= k
    decreases |s|
  {
    NonEmptyHasElement(s);
    var x :| x in s;
    if s != {x} {
      var s' := s - {x};
      assert s == s' + {x};
      HasMinimum(s');
      var m :| m in s' && forall k :: k in s' ==> m <= k;
      if x < m {
        assert forall k :: k in s ==> x <= k;
      } else {
        assert forall k :: k in s ==> m <= k;
      }
    } else {
      assert forall k :: k in s ==> x <= k;
    }
  }

  function Minimum(s: set<int>): (m: int)
    requires s != {}
    ensures m in s && forall k :: k in s ==> m <= k
  {
    HasMinimum(s);
    var m :| m in s && forall k :: k in s ==> m <= k;
    m
  }

  /** The field indices in ascending order (`OrderBy(z => z.Key)`). */
  function SortedKeys(s: set<int>): (r: seq<int>)
    ensures |r| == |s|
    ensures forall i :: 0 <= i < |r| ==> r[i] in s
    ensures forall k :: k in s ==> k in r
    ensures forall i, j :: 0 <= i < j < |r| ==> r[i] < r[j]
    decreases |s|
  {
    if s == {} then []
    else
      var m := Minimum(s);
      var rest := SortedKeys(s - {m});
      SortedKeysStep(s, m, rest);
      [m] + rest
  }

  lemma SortedKeysStep(s: set<int>, m: int, rest: seq<int>)
    requires m in s && forall k :: k in s ==> m <= k
    requires |rest| == |s - {m}|
    requires forall i :: 0 <= i < |rest| ==> rest[i] in s - {m}
    requires forall k :: k in s - {m} ==> k in rest
    requires forall i, j :: 0 <= i < j < |rest| ==> rest[i] < rest[j]
    ensures var r := [m] + rest;
      && |r| == |s|
      && (forall i :: 0 <= i < |r| ==> r[i] in s)
      && (forall k :: k in s ==> k in r)
      && (forall i, j :: 0 <= i < j < |r| ==> r[i] < r[j])
  {
    SortedKeysCover(s, m, rest);
    SortedKeysIncrease(s, m, rest);
  }

  lemma SortedKeysCover(s: set<int>, m: int, rest: seq<int>)
    requires m in s
    requires |rest| == |s - {m}|
    requires forall i :: 0 <= i < |rest| ==> rest[i] in s - {m}
    requires forall k :: k in s - {m} ==> k in rest
    ensures |[m] + rest| == |s|
    ensures forall i :: 0 <= i < |[m] + rest| ==> ([m] + rest)[i] in s
    ensures forall k :: k in s ==> k in [m] + rest
  {
    var r := [m] + rest;
    assert s == (s - {m}) + {m};
    forall i | 0 <= i < |r| ensures r[i] in s {
      if i > 0 {
        assert r[i] == rest[i - 1];
      }
    }
    forall k | k in s ensures k in r {
      if k != m {
        assert k in rest;
      }
    }
  }

  lemma SortedKeysIncrease(s: set<int>, m: int, rest: seq<int>)
    requires forall k :: k in s ==> m <= k
    requires forall i :: 0 <= i < |rest| ==> rest[i] in s - {m}
    requires forall i, j :: 0 <= i < j < |rest| ==> rest[i] < rest[j]
    ensures forall i, j :: 0 <= i < j < |[m] + rest| ==> ([m] + rest)[i] < ([m] + rest)[j]
  {
    var r := [m] + rest;
    forall i, j | 0 <= i < j < |r| ensures r[i] < r[j] {
      if i == 0 {
        assert r[j] == rest[j - 1];
      } else {
        assert r[i] == rest[i - 1] && r[j] == rest[j - 1];
      }
    }
  }

  /* ---------------- fingerprint ---------------- */

  /** The hash of each observation, in ascending field order. */
  function OrderedHashes<O>(a: Analyzer<O>, fields: map<int, O>): (r: seq<int>)
    ensures |r| == |fields|
    ensures var keys := SortedKeys(fields.Keys);
      forall i :: 0 <= i < |r| ==> r[i] == a.obsHash(fields[keys[i]])
  {
    var keys := SortedKeys(fields.Keys);
    HashesOf(a, fields, keys, |keys|)
  }

  /** `hash = combine(hash, h)` for each `h`, starting from 0, written as the
      fold over a prefix followed by the last step. */
  function FoldHash(combine: (int, int) -> int, hashes: seq<int>): int
    decreases |hashes|
  {
    if |hashes| == 0 then 0
    else combine(FoldHash(combine, hashes[..|hashes| - 1]), hashes[|hashes| - 1])
  }

  /** The same fold written front to back, from an accumulator. */
  function FoldFrom(combine: (int, int) -> int, acc: int, hashes: seq<int>): int
    decreases |hashes|
  {
    if |hashes| == 0 then acc else FoldFrom(combine, combine(acc, hashes[0]), hashes[1..])
  }

  lemma {:induction false} FoldFromSnoc(combine: (int, int) -> int, acc: int, hashes: seq<int>, h: int)
    ensures FoldFrom(combine, acc, hashes + [h]) == combine(FoldFrom(combine, acc, hashes), h)
    decreases |hashes|
  {
    if |hashes| > 0 {
      assert (hashes + [h])[1..] == hashes[1..] + [h];
      FoldFromSnoc(combine, combine(acc, hashes[0]), hashes[1..], h);
    }
  }

  /** The fingerprint is the left fold of `combine` from 0 over the hashes in
      order: the loop of `DumpFile` read front to back. */
  lemma {:induction false} FoldHashIsLeftFold(combine: (int, int) -> int, hashes: seq<int>)
    ensures FoldHash(combine, hashes) == FoldFrom(combine, 0, hashes)
    decreases |hashes|
  {
    if |hashes| > 0 {
      var prefix := hashes[..|hashes| - 1];
      FoldHashIsLeftFold(combine, prefix);
      FoldFromSnoc(combine, 0, prefix, hashes[|hashes| - 1]);
      assert prefix + [hashes[|hashes| - 1]] == hashes;
    }
  }

  /** Whether `Summary` returns for the observation at each of the first
      `n` keys. */
  predicate SummariesReturn<O>(a: Analyzer<O>, fields: map<int, O>, keys: seq<int>, n: nat)
    requires n <= |keys| && forall i :: 0 <= i < |keys| ==> keys[i] in fields
  {
    forall i :: 0 <= i < n ==> a.summary(keys[i], fields[keys[i]]).Some?
  }

  /** The loop of the dumping branch: writes one line per field and folds the
      same hashes, over the first `n` fields in order. A `Summary` that
      throws ends the loop, and with it the whole dump. */
  function DumpLoop<O>(a: Analyzer<O>, fields: map<int, O>, keys: seq<int>, n: nat): (r: Option<(seq<DumpLine>, int)>)
    requires n <= |keys| && forall i :: 0 <= i < |keys| ==> keys[i] in fields
    ensures r.Some? <==> SummariesReturn(a, fields, keys, n)
    ensures r.Some? ==> |r.value.0| == n
    ensures r.Some? ==> forall i :: 0 <= i < n ==>
      r.value.0[i] == DumpLine(keys[i], a.summary(keys[i], fields[keys[i]]).value)
    ensures r.Some? ==> r.value.1 == FoldHash(a.combine, HashesOf(a, fields, keys, n))
    decreases n
  {
    if n == 0 then Some(([], 0))
    else
      var prev :- DumpLoop(a, fields, keys, n - 1);
      var k := keys[n - 1];
      var line :- a.summary(k, fields[k]);
      assert HashesOf(a, fields, keys, n)[..n - 1] == HashesOf(a, fields, keys, n - 1);
      Some((prev.0 + [DumpLine(k, line)], a.combine(prev.1, a.obsHash(fields[k]))))
  }

  /** The hashes of the observations at the first `n` keys. */
  function HashesOf<O>(a: Analyzer<O>, fields: map<int, O>, keys: seq<int>, n: nat): (r: seq<int>)
    requires n <= |keys| && forall i :: 0 <= i < |keys| ==> keys[i] in fields
    ensures |r| == n && forall i :: 0 <= i < n ==> r[i] == a.obsHash(fields[keys[i]])
  {
    seq(n, i requires 0 <= i < n => a.obsHash(fields[keys[i]]))
  }

  /** `Summary` returns for every field of the analysis. */
  predicate AllSummariesReturn<O>(a: Analyzer<O>, fields: map<int, O>) {
    forall k :: k in fields ==> a.summary(k, fields[k]).Some?
  }

  lemma SummariesReturnInKeyOrder<O>(a: Analyzer<O>, fields: map<int, O>)
    ensures var keys := SortedKeys(fields.Keys);
      SummariesReturn(a, fields, keys, |keys|) <==> AllSummariesReturn(a, fields)
  {
  }

  /** The lines of a per-file dump and the fingerprint folded alongside,
      unless a `Summary` throws. */
  function DumpLines<O>(a: Analyzer<O>, fields: map<int, O>): (r: Option<(seq<DumpLine>, int)>)
    ensures r.Some? <==> AllSummariesReturn(a, fields)
    ensures r.Some? ==> r.value.1 == FoldHash(a.combine, OrderedHashes(a, fields))
    ensures r.Some? ==> var lines := r.value.0;
      && |lines| == |fields|
      && (forall i :: 0 <= i < |lines| ==>
            lines[i].index in fields && Some(lines[i].summary) == a.summary(lines[i].index, fields[lines[i].index]))
      && (forall i, j :: 0 <= i < j < |lines| ==> lines[i].index < lines[j].index)
  {
    var keys := SortedKeys(fields.Keys);
    SummariesReturnInKeyOrder(a, fields);
    var r := DumpLoop(a, fields, keys, |keys|);
    if r.Some? then DumpLoopInKeyOrder(a, fields, r.value.0); r else r
  }

  lemma DumpLoopInKeyOrder<O>(a: Analyzer<O>, fields: map<int, O>, lines: seq<DumpLine>)
    requires var keys := SortedKeys(fields.Keys);
      && |lines| == |keys|
      && forall i :: 0 <= i < |keys| ==>
           a.summary(keys[i], fields[keys[i]]).Some?
           && lines[i] == DumpLine(keys[i], a.summary(keys[i], fields[keys[i]]).value)
    ensures |lines| == |fields|
    ensures forall i :: 0 <= i < |lines| ==>
      lines[i].index in fields && Some(lines[i].summary) == a.summary(lines[i].index, fields[lines[i].index])
    ensures forall i, j :: 0 <= i < j < |lines| ==> lines[i].index < lines[j].index
  {
  }

  /** `DumpFile`: the fingerprint of the observations in ascending field
      order, the root's field count, the bare file name and the full path;
      with per-file dumping on, also the dump's lines. Dumping throws, and
      nothing is returned, when the dump file cannot be created or a
      `Summary` throws. */
  function DumpFile<O>(settings: Settings, a: Analyzer<O>, path: string, dumpWritable: bool, analysis: FieldAnalysis<O>)
    : (r: Option<(AnalysisResult, seq<DumpLine>)>)
    ensures !settings.dumpIndividualSchemaAnalysis ==> r.Some? && r.value.1 == []
    ensures settings.dumpIndividualSchemaAnalysis ==>
      (r.Some? <==> dumpWritable && AllSummariesReturn(a, analysis.fields))
    ensures r.Some? ==> r.value.0.hash == FoldHash(a.combine, OrderedHashes(a, analysis.fields))
    ensures r.Some? ==>
      r.value.0.fieldCount == analysis.fieldCount && r.value.0.fileName == GetFileName(path) && r.value.0.path == path
    ensures r.Some? && settings.dumpIndividualSchemaAnalysis ==> var lines := r.value.1;
      && |lines| == |analysis.fields|
      && (forall i :: 0 <= i < |lines| ==>
            lines[i].index in analysis.fields
            && Some(lines[i].summary) == a.summary(lines[i].index, analysis.fields[lines[i].index]))
      && (forall i, j :: 0 <= i < j < |lines| ==> lines[i].index < lines[j].index)
  {
    var fields := analysis.fields;
    var keys := SortedKeys(fields.Keys);
    if settings.dumpIndividualSchemaAnalysis then
      if !dumpWritable then None
      else
        var dump :- DumpLines(a, fields);
        Some((AnalysisResult(analysis.fieldCount, dump.1, GetFileName(path), path), dump.0))
    else
      FoldHashIsLeftFold(a.combine, OrderedHashes(a, fields));
      Some((AnalysisResult(analysis.fieldCount, FoldFrom(a.combine, 0, OrderedHashes(a, fields)), GetFileName(path), path), []))
  }

  /** Per-file dumping changes what is written and whether the dump can
      fail, never the result of a dump that completes. */
  lemma DumpSettingDoesNotChangeResult<O>(s1: Settings, s2: Settings, a: Analyzer<O>, path: string,
                                          w1: bool, w2: bool, analysis: FieldAnalysis<O>)
    ensures DumpFile(s1, a, path, w1, analysis).Some? && DumpFile(s2, a, path, w2, analysis).Some? ==>
      DumpFile(s1, a, path, w1, analysis).value.0 == DumpFile(s2, a, path, w2, analysis).value.0
  {
  }

  /** Two analyses whose observations hash alike, field by field in
      ascending order, have the same fingerprint, whatever the indices. */
  lemma SameOrderedHashesSameFingerprint<O>(s: Settings, a: Analyzer<O>, path: string, w: bool, x: FieldAnalysis<O>, y: FieldAnalysis<O>)
    requires x.fieldCount == y.fieldCount
    requires OrderedHashes(a, x.fields) == OrderedHashes(a, y.fields)
    ensures DumpFile(s, a, path, w, x).Some? && DumpFile(s, a, path, w, y).Some? ==>
      DumpFile(s, a, path, w, x).value.0 == DumpFile(s, a, path, w, y).value.0
  {
  }

  /* ---------------- which files are analysed ---------------- */

  /** `ReadAndDump`: data failing the size check is declined; an analysis or
      a dump that throws fails. */
  function ReadAndDump<O>(settings: Settings, a: Analyzer<O>, path: string, dumpWritable: bool, data: Buffer): (r: Attempt)
    ensures !a.isSizeValid(data) ==> r == Declined
    ensures a.isSizeValid(data) ==> r != Declined
    ensures r.Analyzed? <==>
      && a.isSizeValid(data) && a.analyze(data).Ok?
      && DumpFile(settings, a, path, dumpWritable, a.analyze(data).value).Some?
    ensures r.Analyzed? ==> (r.result, r.dump) == DumpFile(settings, a, path, dumpWritable, a.analyze(data).value).value
  {
    if !a.isSizeValid(data) then Declined
    else
      match a.analyze(data)
      case Err(_) => Failed
      case Ok(analysis) =>
        match DumpFile(settings, a, path, dumpWritable, analysis)
        case None => Failed
        case Some((result, dump)) => Analyzed(result, dump)
  }

  /** `TryAnalyzeFile`: a file that cannot be opened fails, a file longer
      than the peek buffer is declined before it is read, and a short read
      throws. */
  function TryAnalyzeFile<O>(settings: Settings, a: Analyzer<O>, f: FileInput): (r: Attempt)
    ensures !f.opens ==> r == Failed
    ensures f.opens && f.length > settings.maxPeekSize ==> r == Declined
    ensures f.opens && f.length <= settings.maxPeekSize && |f.bytesRead| != f.length ==> r == Failed
    ensures r.Analyzed? <==>
      && f.opens
      && f.length <= settings.maxPeekSize
      && |f.bytesRead| == f.length
      && a.isSizeValid(f.bytesRead)
      && a.analyze(f.bytesRead).Ok?
      && DumpFile(settings, a, f.path, f.dumpWritable, a.analyze(f.bytesRead).value).Some?
    ensures r.Analyzed? ==>
      && r.result.path == f.path && r.result.fileName == GetFileName(f.path)
      && r.result.fieldCount == a.analyze(f.bytesRead).value.fieldCount
  {
    if !f.opens then Failed
    else if f.length > settings.maxPeekSize then Declined
    else if |f.bytesRead| != f.length then Failed
    else ReadAndDump(settings, a, f.path, f.dumpWritable, f.bytesRead)
  }

  /** With per-file dumping on, a file whose dump cannot be written, or one
      of whose observations cannot be summarised, is not reported. */
  lemma FailedDumpDropsFile<O>(settings: Settings, a: Analyzer<O>, f: FileInput)
    requires settings.dumpIndividualSchemaAnalysis
    requires !f.dumpWritable
      || (a.analyze(f.bytesRead).Ok? && !AllSummariesReturn(a, a.analyze(f.bytesRead).value.fields))
    ensures !TryAnalyzeFile(settings, a, f).Analyzed?
  {
  }

  /** With per-file dumping off, neither the dump's path nor `Summary` plays
      any part in whether a file is reported or what its result is. */
  lemma DumpOffIgnoresDump<O>(settings: Settings, a: Analyzer<O>, f: FileInput, a': Analyzer<O>, w: bool)
    requires !settings.dumpIndividualSchemaAnalysis
    requires a' == a.(summary := a'.summary)
    ensures TryAnalyzeFile(settings, a, f) == TryAnalyzeFile(settings, a', f.(dumpWritable := w))
  {
  }

  /** The loop of `IterateAndDump` skips a file whose dump exists when asked to. */
  predicate Skipped(settings: Settings, f: FileInput) {
    settings.skipAnalysisIfSchemaDumpExists && f.dumpExists
  }

  /** Whether the loop of `IterateAndDump` reports a result for the file. */
  predicate Reported<O>(settings: Settings, a: Analyzer<O>, f: FileInput) {
    !Skipped(settings, f) && TryAnalyzeFile(settings, a, f).Analyzed?
  }

  /** The results one file adds: one when analysed, none otherwise (a thrown
      exception is caught and reported). */
  function Contribution<O>(settings: Settings, a: Analyzer<O>, f: FileInput): (r: seq<AnalysisResult>)
    ensures |r| <= 1
    ensures |r| == 1 <==> !Skipped(settings, f) && TryAnalyzeFile(settings, a, f).Analyzed?
    ensures |r| == 1 ==> r[0] == TryAnalyzeFile(settings, a, f).result
  {
    if Skipped(settings, f) then []
    else
      match TryAnalyzeFile(settings, a, f)
      case Analyzed(result, _) => [result]
      case _ => []
  }

  lemma ContributionCases<O>(settings: Settings, a: Analyzer<O>, f: FileInput)
    ensures Contribution(settings, a, f)
            == if Skipped(settings, f) || !TryAnalyzeFile(settings, a, f).Analyzed? then []
               else [TryAnalyzeFile(settings, a, f).result]
  {
  }

  /** The per-file step of the batch, as a value. */
  function ContributionOf<O>(settings: Settings, a: Analyzer<O>): FileInput -> seq<AnalysisResult> {
    f => Contribution(settings, a, f)
  }

  /** The results of the files in turn, concatenated. */
  function ConcatMap<X, Y>(step: X -> seq<Y>, xs: seq<X>): seq<Y>
    decreases |xs|
  {
    if |xs| == 0 then [] else ConcatMap(step, xs[..|xs| - 1]) + step(xs[|xs| - 1])
  }

  lemma {:induction false} ConcatMapAppend<X, Y>(step: X -> seq<Y>, xs: seq<X>, ys: seq<X>)
    ensures ConcatMap(step, xs + ys) == ConcatMap(step, xs) + ConcatMap(step, ys)
    decreases |ys|
  {
    if |ys| > 0 {
      var ys' := ys[..|ys| - 1];
      assert (xs + ys)[..|xs + ys| - 1] == xs + ys';
      assert (xs + ys)[|xs + ys| - 1] == ys[|ys| - 1];
      ConcatMapAppend(step, xs, ys');
    } else {
      assert xs + ys == xs;
    }
  }

  lemma {:induction false} ConcatMapOrigin<X, Y>(step: X -> seq<Y>, xs: seq<X>, j: nat)
    requires j < |ConcatMap(step, xs)|
    ensures exists k :: 0 <= k < |xs| && ConcatMap(step, xs)[j] in step(xs[k])
    decreases |xs|
  {
    var prefix := xs[..|xs| - 1];
    if j < |ConcatMap(step, prefix)| {
      ConcatMapOrigin(step, prefix, j);
      var m :| 0 <= m < |prefix| && ConcatMap(step, prefix)[j] in step(prefix[m]);
      assert prefix[m] == xs[m];
    } else {
      var k := |xs| - 1;
      assert ConcatMap(step, xs)[j] == step(xs[k])[j - |ConcatMap(step, prefix)|];
    }
  }

  /** The results of a batch: each file's contribution, in file order. */
  function AnalyzeAll<O>(settings: Settings, a: Analyzer<O>, files: seq<FileInput>): (r: seq<AnalysisResult>)
    ensures |r| <= |files|
    ensures r == [] <==> forall k :: 0 <= k < |files| ==> !Reported(settings, a, files[k])
    decreases |files|
  {
    if |files| == 0 then []
    else
      var prefix := files[..|files| - 1];
      NoneSnoc(f => Reported(settings, a, f), files);
      AnalyzeAll(settings, a, prefix) + Contribution(settings, a, files[|files| - 1])
  }

  lemma NoneSnoc<T>(p: T -> bool, xs: seq<T>)
    requires |xs| > 0
    ensures var prefix := xs[..|xs| - 1];
      (forall k :: 0 <= k < |xs| ==> !p(xs[k]))
      <==> (forall k :: 0 <= k < |prefix| ==> !p(prefix[k])) && !p(xs[|xs| - 1])
  {
    var prefix := xs[..|xs| - 1];
    assert forall k :: 0 <= k < |prefix| ==> prefix[k] == xs[k];
  }

  /** A skipped file is never opened: the batch's results are the same
      whether or not it is in the list, whatever its contents. */
  lemma SkippedFileIgnored<O>(settings: Settings, a: Analyzer<O>, files: seq<FileInput>, f: FileInput)
    requires settings.skipAnalysisIfSchemaDumpExists && f.dumpExists
    ensures Contribution(settings, a, f) == []
    ensures AnalyzeAll(settings, a, files + [f]) == AnalyzeAll(settings, a, files)
  {
  }

  lemma AnalyzeAllStep<O>(settings: Settings, a: Analyzer<O>, files: seq<FileInput>, i: nat)
    requires i < |files|
    ensures AnalyzeAll(settings, a, files[..i + 1])
            == AnalyzeAll(settings, a, files[..i]) + Contribution(settings, a, files[i])
  {
    assert files[..i + 1][..i] == files[..i];
  }

  /** Every file that is not skipped and analyses successfully is reported. */
  lemma {:induction false} AnalyzedFilesReported<O>(settings: Settings, a: Analyzer<O>, files: seq<FileInput>, k: nat)
    requires k < |files| && !Skipped(settings, files[k]) && TryAnalyzeFile(settings, a, files[k]).Analyzed?
    ensures TryAnalyzeFile(settings, a, files[k]).result in AnalyzeAll(settings, a, files)
    decreases |files|
  {
    var prefix := files[..|files| - 1];
    var x := TryAnalyzeFile(settings, a, files[k]).result;
    var c := Contribution(settings, a, files[|files| - 1]);
    assert AnalyzeAll(settings, a, files) == AnalyzeAll(settings, a, prefix) + c;
    if k < |prefix| {
      assert files[k] == prefix[k];
      AnalyzedFilesReported(settings, a, prefix, k);
      InAppend(x, AnalyzeAll(settings, a, prefix), c);
    } else {
      assert k == |files| - 1;
      assert |c| == 1 && c[0] == x;
      assert x in AnalyzeAll(settings, a, prefix) + c by {
        assert (AnalyzeAll(settings, a, prefix) + c)[|AnalyzeAll(settings, a, prefix)|] == x;
      }
    }
  }

  lemma InAppend<T>(x: T, xs: seq<T>, ys: seq<T>)
    requires x in xs
    ensures x in xs + ys
  {
    var i :| 0 <= i < |xs| && xs[i] == x;
    assert (xs + ys)[i] == x;
  }

  lemma {:induction false} AnalyzeAllIsConcatMap<O>(settings: Settings, a: Analyzer<O>, files: seq<FileInput>)
    ensures AnalyzeAll(settings, a, files) == ConcatMap(ContributionOf(settings, a), files)
    decreases |files|
  {
    if |files| > 0 {
      AnalyzeAllIsConcatMap(settings, a, files[..|files| - 1]);
    }
  }

  /** A file's outcome does not depend on the files around it: the results
      of two batches run one after the other are those of the joined batch. */
  lemma AnalyzeAllAppend<O>(settings: Settings, a: Analyzer<O>, xs: seq<FileInput>, ys: seq<FileInput>)
    ensures AnalyzeAll(settings, a, xs + ys) == AnalyzeAll(settings, a, xs) + AnalyzeAll(settings, a, ys)
  {
    AnalyzeAllIsConcatMap(settings, a, xs + ys);
    AnalyzeAllIsConcatMap(settings, a, xs);
    AnalyzeAllIsConcatMap(settings, a, ys);
    ConcatMapAppend(ContributionOf(settings, a), xs, ys);
  }

  /** Every result is the analysis of one file that was not skipped, and names
      it: its full path and its bare file name. */
  lemma ResultsNameTheirFiles<O>(settings: Settings, a: Analyzer<O>, files: seq<FileInput>, j: nat)
    requires j < |AnalyzeAll(settings, a, files)|
    ensures var r := AnalyzeAll(settings, a, files)[j];
      exists k :: 0 <= k < |files| && !Skipped(settings, files[k])
        && TryAnalyzeFile(settings, a, files[k]).Analyzed?
        && r == TryAnalyzeFile(settings, a, files[k]).result
        && r.path == files[k].path && r.fileName == GetFileName(files[k].path)
  {
    AnalyzeAllIsConcatMap(settings, a, files);
    ConcatMapOrigin(ContributionOf(settings, a), files, j);
    var k :| 0 <= k < |files| && AnalyzeAll(settings, a, files)[j] in ContributionOf(settings, a)(files[k]);
    assert |Contribution(settings, a, files[k])| == 1;
  }

  /* ---------------- the report ---------------- */

  function FieldCountOf(r: AnalysisResult): nat { r.fieldCount }
  function HashOf(r: AnalysisResult): int { r.hash }

  /** `OrderBy(z => z.FileName).ThenBy(z => z.Path)`, with ordinal comparison. */
  predicate EntryLessOrEqual(x: AnalysisResult, y: AnalysisResult) {
    if x.fileName != y.fileName then OrdinalLessOrEqual(x.fileName, y.fileName)
    else OrdinalLessOrEqual(x.path, y.path)
  }

  lemma EntryTotal(x: AnalysisResult, y: AnalysisResult)
    ensures EntryLessOrEqual(x, y) || EntryLessOrEqual(y, x)
  {
    OrdinalTotal(x.fileName, y.fileName);
    OrdinalTotal(x.path, y.path);
  }

  lemma EntryTransitive(x: AnalysisResult, y: AnalysisResult, z: AnalysisResult)
    requires EntryLessOrEqual(x, y) && EntryLessOrEqual(y, z)
    ensures EntryLessOrEqual(x, z)
  {
    if x.fileName == y.fileName && y.fileName == z.fileName {
      OrdinalTransitive(x.path, y.path, z.path);
    } else if x.fileName != y.fileName && y.fileName != z.fileName {
      OrdinalTransitive(x.fileName, y.fileName, z.fileName);
      if x.fileName == z.fileName {
        OrdinalAntisymmetric(x.fileName, y.fileName);
      }
    }
  }

  predicate SortedEntries(s: seq<AnalysisResult>) {
    forall i, j :: 0 <= i < j < |s| ==> EntryLessOrEqual(s[i], s[j])
  }

  function Insert(x: AnalysisResult, s: seq<AnalysisResult>): (r: seq<AnalysisResult>)
    requires SortedEntries(s)
    ensures SortedEntries(r)
    ensures multiset(r) == multiset(s) + multiset{x}
    decreases |s|
  {
    if |s| == 0 then [x]
    else if EntryLessOrEqual(x, s[0]) then
      InsertFront(x, s);
      assert s == [s[0]] + s[1..];
      [x] + s
    else
      EntryTotal(x, s[0]);
      var rest := Insert(x, s[1..]);
      InsertBehind(x, s, rest);
      assert s == [s[0]] + s[1..];
      [s[0]] + rest
  }

  lemma InsertFront(x: AnalysisResult, s: seq<AnalysisResult>)
    requires SortedEntries(s) && |s| > 0 && EntryLessOrEqual(x, s[0])
    ensures SortedEntries([x] + s)
  {
    var r := [x] + s;
    forall i, j | 0 <= i < j < |r|
      ensures EntryLessOrEqual(r[i], r[j])
    {
      if i == 0 && j > 1 {
        EntryTransitive(x, s[0], s[j - 1]);
      }
    }
  }

  lemma InsertBehind(x: AnalysisResult, s: seq<AnalysisResult>, rest: seq<AnalysisResult>)
    requires SortedEntries(s) && |s| > 0 && EntryLessOrEqual(s[0], x)
    requires SortedEntries(rest) && multiset(rest) == multiset(s[1..]) + multiset{x}
    ensures SortedEntries([s[0]] + rest)
  {
    var r := [s[0]] + rest;
    forall j | 0 <= j < |rest|
      ensures EntryLessOrEqual(s[0], rest[j])
    {
      assert rest[j] in multiset(rest);
      if rest[j] != x {
        assert rest[j] in multiset(s[1..]);
        var k :| 0 <= k < |s[1..]| && s[1..][k] == rest[j];
        assert s[k + 1] == rest[j];
      }
    }
    forall i, j | 0 <= i < j < |r|
      ensures EntryLessOrEqual(r[i], r[j])
    {
      if i == 0 {
        assert r[j] == rest[j - 1];
      } else {
        assert r[i] == rest[i - 1] && r[j] == rest[j - 1];
      }
    }
  }

  /** The entries of a bucket in report order. */
  function SortEntries(s: seq<AnalysisResult>): (r: seq<AnalysisResult>)
    ensures SortedEntries(r) && multiset(r) == multiset(s)
    decreases |s|
  {
    if |s| == 0 then []
    else
      assert s == [s[0]] + s[1..];
      Insert(s[0], SortEntries(s[1..]))
  }

  datatype HashBucket = HashBucket(hash: int, entries: seq<AnalysisResult>)
  datatype Section = Section(fieldCount: nat, buckets: seq<HashBucket>)

  /** `fc.GroupBy(z => z.Hash)` with each bucket ordered. */
  function Buckets(members: seq<AnalysisResult>): (r: seq<HashBucket>)
    ensures var g := GroupBy(members, HashOf);
      && |r| == |g|
      && forall j :: 0 <= j < |r| ==>
           && r[j].hash == g[j].key
           && SortedEntries(r[j].entries)
           && multiset(r[j].entries) == multiset(Filter(members, HashOf, r[j].hash))
  {
    var g := GroupBy(members, HashOf);
    seq(|g|, j requires 0 <= j < |g| => HashBucket(g[j].key, SortEntries(g[j].members)))
  }

  /** `ExportMetadata`: sections by field count in order of first
      appearance, buckets by hash likewise, entries by file name then path. */
  function Export(results: seq<AnalysisResult>): (r: seq<Section>)
    ensures var g := GroupBy(results, FieldCountOf);
      && |r| == |g|
      && forall i :: 0 <= i < |r| ==> r[i].fieldCount == g[i].key && r[i].buckets == Buckets(g[i].members)
  {
    var g := GroupBy(results, FieldCountOf);
    seq(|g|, i requires 0 <= i < |g| => Section(g[i].key, Buckets(g[i].members)))
  }

  function SectionCounts(sections: seq<Section>): (r: seq<nat>)
    ensures |r| == |sections| && forall i :: 0 <= i < |r| ==> r[i] == sections[i].fieldCount
  {
    seq(|sections|, i requires 0 <= i < |sections| => sections[i].fieldCount)
  }

  function BucketHashes(buckets: seq<HashBucket>): (r: seq<int>)
    ensures |r| == |buckets| && forall i :: 0 <= i < |r| ==> r[i] == buckets[i].hash
  {
    seq(|buckets|, i requires 0 <= i < |buckets| => buckets[i].hash)
  }

  /** The sections follow the first appearance of each field count among the
      results, each count once. */
  lemma ExportSectionOrder(results: seq<AnalysisResult>)
    ensures SectionCounts(Export(results)) == DistinctKeys(results, FieldCountOf)
  {
    assert SectionCounts(Export(results)) == Keys(GroupBy(results, FieldCountOf));
  }

  /** The buckets of a section follow the first appearance of each hash among
      that count's results, each hash once. */
  lemma ExportBucketOrder(results: seq<AnalysisResult>, i: nat)
    requires i < |Export(results)|
    ensures var s := Export(results)[i];
      BucketHashes(s.buckets) == DistinctKeys(Filter(results, FieldCountOf, s.fieldCount), HashOf)
  {
    var g := GroupBy(results, FieldCountOf);
    var members := g[i].members;
    assert Export(results)[i].buckets == Buckets(members);
    assert BucketHashes(Buckets(members)) == Keys(GroupBy(members, HashOf));
  }

  /** Every entry of a bucket has the section's field count and the bucket's
      hash, the entries are in report order, and they are exactly the results
      with that count and hash. */
  lemma ExportBucketContents(results: seq<AnalysisResult>, i: nat, j: nat)
    requires i < |Export(results)| && j < |Export(results)[i].buckets|
    ensures var s := Export(results)[i];
      var b := s.buckets[j];
      && SortedEntries(b.entries)
      && multiset(b.entries)
         == multiset(Filter(Filter(results, FieldCountOf, s.fieldCount), HashOf, b.hash))
      && forall e :: e in b.entries ==> e.fieldCount == s.fieldCount && e.hash == b.hash
  {
    var s := Export(results)[i];
    var b := s.buckets[j];
    ExportBucketSelects(results, i, j);
    forall e | e in b.entries
      ensures e.fieldCount == s.fieldCount && e.hash == b.hash
    {
      assert e in multiset(b.entries);
      SelectedKeys(results, s.fieldCount, b.hash, e);
    }
  }

  lemma ExportBucketSelects(results: seq<AnalysisResult>, i: nat, j: nat)
    requires i < |Export(results)| && j < |Export(results)[i].buckets|
    ensures var s := Export(results)[i];
      var b := s.buckets[j];
      && SortedEntries(b.entries)
      && multiset(b.entries)
         == multiset(Filter(Filter(results, FieldCountOf, s.fieldCount), HashOf, b.hash))
  {
    var g := GroupBy(results, FieldCountOf);
    assert Export(results)[i].buckets == Buckets(g[i].members);
  }

  lemma SelectedKeys(results: seq<AnalysisResult>, fc: nat, h: int, e: AnalysisResult)
    requires e in multiset(Filter(Filter(results, FieldCountOf, fc), HashOf, h))
    ensures e.fieldCount == fc && e.hash == h
  {
    var inner := Filter(results, FieldCountOf, fc);
    var f := Filter(inner, HashOf, h);
    var k :| 0 <= k < |f| && f[k] == e;
    FilterMember(inner, HashOf, h, k);
    var m :| 0 <= m < |inner| && inner[m] == e;
    assert FieldCountOf(inner[m]) == fc;
  }

  /** All entries of the report, in report order. */
  function ReportEntries(sections: seq<Section>): seq<AnalysisResult>
    decreases |sections|
  {
    if |sections| == 0 then []
    else ReportEntries(sections[..|sections| - 1]) + BucketEntries(sections[|sections| - 1].buckets)
  }

  function BucketEntries(buckets: seq<HashBucket>): seq<AnalysisResult>
    decreases |buckets|
  {
    if |buckets| == 0 then []
    else BucketEntries(buckets[..|buckets| - 1]) + buckets[|buckets| - 1].entries
  }

  /** Sorting each group's members keeps the multiset of the grouping. */
  lemma {:induction false} BucketsPartition(members: seq<AnalysisResult>)
    ensures multiset(BucketEntries(Buckets(members))) == multiset(members)
  {
    var g := GroupBy(members, HashOf);
    BucketEntriesAgree(Buckets(members), g);
    GroupByPartition(members, HashOf);
  }

  lemma {:induction false} BucketEntriesAgree(b: seq<HashBucket>, g: seq<Group<int, AnalysisResult>>)
    requires |b| == |g| && forall j :: 0 <= j < |b| ==> multiset(b[j].entries) == multiset(g[j].members)
    ensures multiset(BucketEntries(b)) == multiset(Flatten(g))
    decreases |b|
  {
    if |b| > 0 {
      BucketEntriesAgree(b[..|b| - 1], g[..|g| - 1]);
    }
  }

  lemma {:induction false} ReportEntriesAgree(r: seq<Section>, g: seq<Group<nat, AnalysisResult>>)
    requires |r| == |g| && forall i :: 0 <= i < |r| ==> r[i].buckets == Buckets(g[i].members)
    ensures multiset(ReportEntries(r)) == multiset(Flatten(g))
    decreases |r|
  {
    if |r| > 0 {
      ReportEntriesAgree(r[..|r| - 1], g[..|g| - 1]);
      BucketsPartition(g[|g| - 1].members);
    }
  }

  /** Every result appears in the report exactly as often as it was
      produced. */
  lemma ExportPartition(results: seq<AnalysisResult>)
    ensures multiset(ReportEntries(Export(results))) == multiset(results)
  {
    ReportEntriesAgree(Export(results), GroupBy(results, FieldCountOf));
    GroupByPartition(results, FieldCountOf);
  }

  /** `IterateAndDump`: analyse the files in order, then build the report. */
  method IterateAndDump<O>(settings: Settings, a: Analyzer<O>, files: seq<FileInput>)
    returns (results: seq<AnalysisResult>, report: seq<Section>)
    ensures results == AnalyzeAll(settings, a, files)
    ensures report == Export(results)
  {
    results := [];
    var i := 0;
    assert files[..0] == [];
    while i < |files|
      invariant 0 <= i <= |files|
      invariant results == AnalyzeAll(settings, a, files[..i])
    {
      var f := files[i];
      var added: seq<AnalysisResult> := [];
      if !Skipped(settings, f) {
        var attempt := TryAnalyzeFile(settings, a, f);
        if attempt.Analyzed? {
          added := [attempt.result];
        }
      }
      ContributionCases(settings, a, f);
      assert added == Contribution(settings, a, f);
      AnalyzeAllStep(settings, a, files, i);
      results := results + added;
      assert results == AnalyzeAll(settings, a, files[..i + 1]);
      i := i + 1;
    }
    assert files[..i] == files;
    report := Export(results);
  }
}

=== FILE: flat_buffer.dfy ===
/** The FlatBuffers layout primitives the node classes build on: little-endian
    reads from an immutable byte buffer, the vtable of a table, and the
    field-offset and reference resolution of a table node
    (`FlatBufferNodeField`). Every offset is an absolute index into the
    buffer; every failure is an `Error` instead of an exception. */
module FlatBuffer {
  import opened Wrappers

  /** An unsigned 8-bit value. */
  newtype Byte = b: int | 0 <= b < 0x100
  type Buffer = seq<Byte>

  /** The failure kinds of the node model. */
  datatype Error =
    | IndexOutOfRange   // field or entry index past the node's count
    | FieldAbsent       // the vtable slot of the field is 0
    | MalformedLayout   // a header or computed offset lies outside the buffer
    | UnknownUnionTag   // a union discriminant with no mapped payload kind
    | NotNavigable      // a node that is neither a table nor an array

  const U16_LIMIT: int := 0x1_0000
  const U32_LIMIT: int := 0x1_0000_0000

  predicate InBounds(data: Buffer, offset: int, width: nat) {
    0 <= offset && offset + width <= |data|
  }

  /** Little-endian `ushort` at `offset`. */
  function ReadU16(data: Buffer, offset: int): (r: nat)
    requires InBounds(data, offset, 2)
    ensures r < U16_LIMIT
  {
    data[offset] as int + 0x100 * data[offset + 1] as int
  }

  /** Little-endian `uint` at `offset`. */
  function ReadU32(data: Buffer, offset: int): (r: nat)
    requires InBounds(data, offset, 4)
    ensures r < U32_LIMIT
  {
    ReadU16(data, offset) + U16_LIMIT * ReadU16(data, offset + 2)
  }

  /** Little-endian two's-complement `int` at `offset`: the same four bytes
      as `ReadU32`, read as a signed value. */
  function ReadI32(data: Buffer, offset: int): (r: int)
    requires InBounds(data, offset, 4)
    ensures -0x8000_0000 <= r < 0x8000_0000
    ensures (ReadU32(data, offset) - r) % U32_LIMIT == 0
  {
    var u := ReadU32(data, offset);
    if u < 0x8000_0000 then u else u - U32_LIMIT
  }

  /** A decoded vtable: its byte length (including the two `ushort` header
      fields), the table's byte length, and one `ushort` per field, 0 for a
      field the writer omitted. */
  datatype VTable = VTable(length: nat, tableLength: nat, fieldOffsets: seq<nat>) {

    function FieldCount(): nat {
      |fieldOffsets|
    }

    ghost predicate Valid() {
      && length == 4 + 2 * |fieldOffsets|
      && length < U16_LIMIT
      && tableLength < U16_LIMIT
      && forall i :: 0 <= i < |fieldOffsets| ==> fieldOffsets[i] < U16_LIMIT
    }
  }

  /** `count` consecutive `ushort`s starting at `start`. */
  function ReadU16Run(data: Buffer, start: int, count: nat): (r: seq<nat>)
    requires InBounds(data, start, 2 * count)
    ensures |r| == count
    ensures forall i :: 0 <= i < count ==> r[i] == ReadU16(data, start + 2 * i)
  {
    if count == 0 then []
    else ReadU16Run(data, start, count - 1) + [ReadU16(data, start + 2 * (count - 1))]
  }

  /** The vtable stored at `v`: its header must lie in the buffer and its
      length must cover the 4-byte header plus whole `ushort` entries. */
  function ReadVTable(data: Buffer, v: int): (r: Result<VTable, Error>)
    ensures r.Ok? <==> (InBounds(data, v, 4) && ReadU16(data, v) >= 4
                        && ReadU16(data, v) % 2 == 0 && InBounds(data, v, ReadU16(data, v)))
    ensures r.Err? ==> r.error == MalformedLayout
    ensures r.Ok? ==> var vt := r.value;
      && vt.Valid()
      && InBounds(data, v, vt.length)
      && vt.length == ReadU16(data, v)
      && vt.tableLength == ReadU16(data, v + 2)
      && forall i :: 0 <= i < vt.FieldCount() ==> vt.fieldOffsets[i] == ReadU16(data, v + 4 + 2 * i)
  {
    if !InBounds(data, v, 4) then Err(MalformedLayout)
    else
      var length := ReadU16(data, v);
      if length < 4 || length % 2 != 0 || !InBounds(data, v, length) then Err(MalformedLayout)
      else Ok(VTable(length, ReadU16(data, v + 2), ReadU16Run(data, v + 4, (length - 4) / 2)))
  }

  /** The vtable position of the table starting at `tableOffset`: the table
      begins with a signed 32-bit distance back to its vtable. */
  function GetVtableOffset(data: Buffer, tableOffset: int): (r: Result<int, Error>)
    ensures r.Ok? ==> InBounds(data, tableOffset, 4) && InBounds(data, r.value, 4)
    ensures r.Ok? ==> (tableOffset - r.value - ReadU32(data, tableOffset)) % U32_LIMIT == 0
    ensures r.Err? ==> r.error == MalformedLayout
  {
    if !InBounds(data, tableOffset, 4) then Err(MalformedLayout)
    else
      var v := tableOffset - ReadI32(data, tableOffset);
      if InBounds(data, v, 4) then Ok(v) else Err(MalformedLayout)
  }

  /** The layout part of a table node (`FlatBufferNodeField`): the node's
      offset, its vtable, where its data and its vtable start. */
  datatype FieldTable = FieldTable(offset: int, vTable: VTable, dataTableOffset: int, vTableOffset: int) {

    function FieldCount(): nat {
      vTable.FieldCount()
    }
  }

  /** `GetFieldOffset`: the absolute position of a field's value. */
  function GetFieldOffset(t: FieldTable, index: int): (r: Result<int, Error>)
    ensures r.Ok? <==> 0 <= index < t.FieldCount() && t.vTable.fieldOffsets[index] != 0
    ensures !(0 <= index < t.FieldCount()) ==> r == Err(IndexOutOfRange)
    ensures 0 <= index < t.FieldCount() && t.vTable.fieldOffsets[index] == 0 ==> r == Err(FieldAbsent)
    ensures r.Ok? ==> r.value == t.dataTableOffset + t.vTable.fieldOffsets[index]
  {
    if index < 0 || index >= t.FieldCount() then Err(IndexOutOfRange)
    else if t.vTable.fieldOffsets[index] == 0 then Err(FieldAbsent)
    else Ok(t.dataTableOffset + t.vTable.fieldOffsets[index])
  }

  /** `GetReferenceOffset`: the target of the `uint` reference stored in a
      field, counted from the field's own slot. */
  function GetReferenceOffset(data: Buffer, t: FieldTable, index: int): (r: Result<int, Error>)
    ensures GetFieldOffset(t, index).Err? ==> r == Err(GetFieldOffset(t, index).error)
    ensures r.Ok? ==> 0 <= r.value < |data|
    ensures r.Ok? ==> var slot := GetFieldOffset(t, index).value;
      InBounds(data, slot, 4) && r.value == slot + ReadU32(data, slot)
    ensures GetFieldOffset(t, index).Ok? && r.Err? ==> r.error == MalformedLayout
  {
    var slot :- GetFieldOffset(t, index);
    if !InBounds(data, slot, 4) then Err(MalformedLayout)
    else
      var target := slot + ReadU32(data, slot);
      if target < |data| then Ok(target) else Err(MalformedLayout)
  }

  /** `ReadUInt8`: the byte stored directly in a field. */
  function ReadUInt8(data: Buffer, t: FieldTable, index: int): (r: Result<Byte, Error>)
    ensures GetFieldOffset(t, index).Err? ==> r == Err(GetFieldOffset(t, index).error)
    ensures r.Ok? ==> var slot := GetFieldOffset(t, index).value;
      0 <= slot < |data| && r.value == data[slot]
    ensures GetFieldOffset(t, index).Ok? && r.Err? ==> r.error == MalformedLayout
  {
    var slot :- GetFieldOffset(t, index);
    if 0 <= slot < |data| then Ok(data[slot]) else Err(MalformedLayout)
  }

  /** The two little-endian bytes of a `ushort`. */
  function EncodeU16(x: nat): (r: Buffer)
    requires x < U16_LIMIT
    ensures |r| == 2
  {
    [(x % 0x100) as Byte, (x / 0x100) as Byte]
  }

  /** A run of `ushort`s, each encoded in turn. */
  function EncodeU16Run(xs: seq<nat>): (r: Buffer)
    requires forall i :: 0 <= i < |xs| ==> xs[i] < U16_LIMIT
    ensures |r| == 2 * |xs|
  {
    if |xs| == 0 then [] else EncodeU16Run(xs[..|xs| - 1]) + EncodeU16(xs[|xs| - 1])
  }

  /** The bytes a FlatBuffers writer emits for a vtable. */
  function EncodeVTable(tableLength: nat, fieldOffsets: seq<nat>): (r: Buffer)
    requires 4 + 2 * |fieldOffsets| < U16_LIMIT && tableLength < U16_LIMIT
    requires forall i :: 0 <= i < |fieldOffsets| ==> fieldOffsets[i] < U16_LIMIT
    ensures |r| == 4 + 2 * |fieldOffsets|
  {
    EncodeU16(4 + 2 * |fieldOffsets|) + EncodeU16(tableLength) + EncodeU16Run(fieldOffsets)
  }

  lemma U16At(data: Buffer, offset: int, x: nat)
    requires x < U16_LIMIT && InBounds(data, offset, 2)
    requires data[offset] == EncodeU16(x)[0] && data[offset + 1] == EncodeU16(x)[1]
    ensures ReadU16(data, offset) == x
  {
    assert x == x % 0x100 + 0x100 * (x / 0x100);
  }

  lemma U16RoundTrip(pre: Buffer, x: nat, post: Buffer)
    requires x < U16_LIMIT
    ensures ReadU16(pre + EncodeU16(x) + post, |pre|) == x
  {
    var d := pre + EncodeU16(x) + post;
    assert d[|pre|] == EncodeU16(x)[0];
    assert d[|pre| + 1] == EncodeU16(x)[1];
    U16At(d, |pre|, x);
  }

  lemma {:induction false} U16RunRoundTrip(pre: Buffer, xs: seq<nat>, post: Buffer, i: nat)
    requires forall k :: 0 <= k < |xs| ==> xs[k] < U16_LIMIT
    requires i < |xs|
    ensures InBounds(pre + EncodeU16Run(xs) + post, |pre| + 2 * i, 2)
    ensures ReadU16(pre + EncodeU16Run(xs) + post, |pre| + 2 * i) == xs[i]
  {
    var n := |xs| - 1;
    var init := xs[..n];
    assert EncodeU16Run(xs) == EncodeU16Run(init) + EncodeU16(xs[n]);
    if i == n {
      assert pre + EncodeU16Run(xs) + post == (pre + EncodeU16Run(init)) + EncodeU16(xs[n]) + post;
      U16RoundTrip(pre + EncodeU16Run(init), xs[n], post);
    } else {
      assert pre + EncodeU16Run(xs) + post == pre + EncodeU16Run(init) + (EncodeU16(xs[n]) + post);
      U16RunRoundTrip(pre, init, EncodeU16(xs[n]) + post, i);
    }
  }

  lemma {:induction false} VTableHeaderRoundTrip(pre: Buffer, tableLength: nat, fieldOffsets: seq<nat>, post: Buffer)
    requires 4 + 2 * |fieldOffsets| < U16_LIMIT && tableLength < U16_LIMIT
    requires forall i :: 0 <= i < |fieldOffsets| ==> fieldOffsets[i] < U16_LIMIT
    ensures var data := pre + EncodeVTable(tableLength, fieldOffsets) + post;
      && InBounds(data, |pre|, 4 + 2 * |fieldOffsets|)
      && ReadU16(data, |pre|) == 4 + 2 * |fieldOffsets|
      && ReadU16(data, |pre| + 2) == tableLength
  {
    var len := 4 + 2 * |fieldOffsets|;
    var e := EncodeVTable(tableLength, fieldOffsets);
    var data := pre + e + post;
    var h := EncodeU16(len) + EncodeU16(tableLength);
    assert e == h + EncodeU16Run(fieldOffsets);
    forall k | 0 <= k < 4
      ensures data[|pre| + k] == h[k]
    {
      assert data[|pre| + k] == e[k];
    }
    U16At(data, |pre|, len);
    U16At(data, |pre| + 2, tableLength);
  }

  lemma {:induction false} VTableEntriesRoundTrip(pre: Buffer, tableLength: nat, fieldOffsets: seq<nat>, post: Buffer)
    requires 4 + 2 * |fieldOffsets| < U16_LIMIT && tableLength < U16_LIMIT
    requires forall i :: 0 <= i < |fieldOffsets| ==> fieldOffsets[i] < U16_LIMIT
    ensures var data := pre + EncodeVTable(tableLength, fieldOffsets) + post;
      && InBounds(data, |pre| + 4, 2 * |fieldOffsets|)
      && ReadU16Run(data, |pre| + 4, |fieldOffsets|) == fieldOffsets
  {
    var n := |fieldOffsets|;
    var data := pre + EncodeVTable(tableLength, fieldOffsets) + post;
    var headed := pre + EncodeU16(4 + 2 * n) + EncodeU16(tableLength);
    assert data == headed + EncodeU16Run(fieldOffsets) + post;
    var run := ReadU16Run(data, |pre| + 4, n);
    forall i | 0 <= i < n
      ensures run[i] == fieldOffsets[i]
    {
      U16RunRoundTrip(headed, fieldOffsets, post, i);
    }
  }

  /** Reading back an encoded vtable, wherever it sits in the buffer, gives
      the field offsets and table length that were written. */
  lemma VTableRoundTrip(pre: Buffer, tableLength: nat, fieldOffsets: seq<nat>, post: Buffer)
    requires 4 + 2 * |fieldOffsets| < U16_LIMIT && tableLength < U16_LIMIT
    requires forall i :: 0 <= i < |fieldOffsets| ==> fieldOffsets[i] < U16_LIMIT
    ensures ReadVTable(pre + EncodeVTable(tableLength, fieldOffsets) + post, |pre|)
         == Ok(VTable(4 + 2 * |fieldOffsets|, tableLength, fieldOffsets))
  {
    var n := |fieldOffsets|;
    var data := pre + EncodeVTable(tableLength, fieldOffsets) + post;
    var v := |pre|;
    VTableHeaderRoundTrip(pre, tableLength, fieldOffsets, post);
    VTableEntriesRoundTrip(pre, tableLength, fieldOffsets, post);
    var length := ReadU16(data, v);
    assert length % 2 == 0 && (length - 4) / 2 == n;
    ReadVTableUnfold(data, v);
  }

  lemma ReadVTableUnfold(data: Buffer, v: int)
    requires InBounds(data, v, 4) && ReadU16(data, v) >= 4
    requires ReadU16(data, v) % 2 == 0 && InBounds(data, v, ReadU16(data, v))
    ensures ReadVTable(data, v)
         == Ok(VTable(ReadU16(data, v), ReadU16(data, v + 2), ReadU16Run(data, v + 4, (ReadU16(data, v) - 4) / 2)))
  {
  }
}

=== FILE: flat_buffer_object.dfy ===
/** `FlatBufferObject`: a table node, located either at an absolute offset
    or through a reference stored in a field of its parent. The parent is
    kept as an opaque handle of type `P`; the model never looks inside it. */
module FlatBufferObject {
  import opened Wrappers
  import opened FlatBuffer

  /** A table node: its layout and the handle of the node it was read from. */
  datatype Object<P> = Object(table: FieldTable, parent: P) {

    /** The display name every object node carries. */
    function Name(): string {
      "Object"
    }
  }

  /** `Read(offset, parent, data, tableOffset)`: the vtable is located from the
      table start alone, then decoded; the node keeps `offset` as given. */
  function ReadAt<P>(offset: int, parent: P, data: Buffer, tableOffset: int): (r: Result<Object<P>, Error>)
    ensures r.Ok? <==> GetVtableOffset(data, tableOffset).Ok?
                       && ReadVTable(data, GetVtableOffset(data, tableOffset).value).Ok?
    ensures r.Err? ==> r.error == MalformedLayout
    ensures r.Ok? ==> var t := r.value.table;
      && r.value.parent == parent
      && r.value.Name() == "Object"
      && t.offset == offset
      && t.dataTableOffset == tableOffset
      && t.vTableOffset == GetVtableOffset(data, tableOffset).value
      && t.vTable == ReadVTable(data, t.vTableOffset).value
      && t.vTable.Valid()
      && InBounds(data, t.vTableOffset, t.vTable.length)
  {
    var vTableOffset :- GetVtableOffset(data, tableOffset);
    var vTable :- ReadVTable(data, vTableOffset);
    Ok(Object(FieldTable(offset, vTable, tableOffset, vTableOffset), parent))
  }

  /** `Read(offset, parent, data)`: the table starts at the node's own offset. */
  function Read<P>(offset: int, parent: P, data: Buffer): (r: Result<Object<P>, Error>)
    ensures r.Ok? <==> GetVtableOffset(data, offset).Ok?
                       && ReadVTable(data, GetVtableOffset(data, offset).value).Ok?
    ensures r.Err? ==> r.error == MalformedLayout
    ensures r.Ok? ==> r.value.table.offset == offset && r.value.table.dataTableOffset == offset
    ensures r.Ok? ==> r.value.table.vTableOffset == GetVtableOffset(data, offset).value
                      && r.value.table.vTable == ReadVTable(data, r.value.table.vTableOffset).value
    ensures r.Ok? ==> r.value.parent == parent && r.value.Name() == "Object"
    ensures r.Ok? ==> r.value.table.vTable.Valid()
                      && InBounds(data, r.value.table.vTableOffset, r.value.table.vTable.length)
  {
    ReadAt(offset, parent, data, offset)
  }

  /** `Read(parent, fieldIndex, data)`: the object the field's reference
      points at, with that same parent. `parent` is the caller's node and
      `parentTable` its layout; they are passed apart, so the caller keeps
      them matched. */
  function ReadFromField<P>(parent: P, parentTable: FieldTable, fieldIndex: int, data: Buffer): (r: Result<Object<P>, Error>)
    ensures GetReferenceOffset(data, parentTable, fieldIndex).Err? ==>
              r == Err(GetReferenceOffset(data, parentTable, fieldIndex).error)
    ensures GetReferenceOffset(data, parentTable, fieldIndex).Ok? ==>
              r == Read(GetReferenceOffset(data, parentTable, fieldIndex).value, parent, data)
    ensures r.Ok? ==> GetReferenceOffset(data, parentTable, fieldIndex).Ok?
                      && r.value.table.offset == GetReferenceOffset(data, parentTable, fieldIndex).value
                      && r.value.table.dataTableOffset == r.value.table.offset
                      && r.value.parent == parent
  {
    var offset :- GetReferenceOffset(data, parentTable, fieldIndex);
    Read(offset, parent, data)
  }

  /** The vtable depends on the table offset only: neither the node offset
      nor the parent changes whether decoding succeeds or what it finds. */
  lemma VTableDependsOnTableOffsetOnly<P>(o1: int, p1: P, o2: int, p2: P, data: Buffer, tableOffset: int)
    ensures ReadAt(o1, p1, data, tableOffset).Ok? == ReadAt(o2, p2, data, tableOffset).Ok?
    ensures ReadAt(o1, p1, data, tableOffset).Ok? ==>
      && ReadAt(o1, p1, data, tableOffset).value.table.vTableOffset
         == ReadAt(o2, p2, data, tableOffset).value.table.vTableOffset
      && ReadAt(o1, p1, data, tableOffset).value.table.vTable
         == ReadAt(o2, p2, data, tableOffset).value.table.vTable
  {
  }

  /** Every field of a decoded object whose vtable slot is non-zero resolves
      to its table start plus that slot. */
  lemma FieldOffsetsOfObject<P>(offset: int, parent: P, data: Buffer, i: int)
    requires Read(offset, parent, data).Ok?
    requires 0 <= i < Read(offset, parent, data).value.table.FieldCount()
    ensures var t := Read(offset, parent, data).value.table;
      t.vTable.fieldOffsets[i] != 0 ==>
        GetFieldOffset(t, i) == Ok(offset + ReadU16(data, t.vTableOffset + 4 + 2 * i))
  {
  }
}

=== FILE: flat_buffer_union.dfy ===
/** `FlatBufferUnionInfo`: an operator-supplied map from union discriminant
    to payload kind, and the two-step read of a union stored as the pair
    (type byte at field 0, object reference at field 1). The payload reader
    `readNode` (`FlatBufferNodeField.ReadNode`) is a parameter. */
module FlatBufferUnionInfo {
  import opened Wrappers
  import opened FlatBuffer
  import opened TypeCodeUtil
  import opened FlatBufferObject

  /** `FlatBufferNodeType`: the declared kind of a union arm. */
  datatype NodeType = NodeType(typeCode: TypeCode, isArray: bool)

  /** The operator's mapping from discriminant to arm. */
  datatype UnionInfo = UnionInfo(unionTypes: map<Byte, NodeType>)

  /** The resolved union: the arm, the referenced object, and its payload. */
  datatype UnionNode<P, N> = UnionNode(info: NodeType, node: Object<P>, inner: N)

  /** A reader of the node at a field of a table, given the declared kind. */
  type NodeReader<!N> = (FieldTable, int, TypeCode, bool) -> Result<N, Error>

  /** The parameterless constructor: no arm is mapped. */
  function Default(): (u: UnionInfo)
    ensures forall tag: Byte :: tag !in u.unionTypes
  {
    UnionInfo(map[])
  }

  /** `ReadUnion(node, data, type)`: look the tag up, then read the payload at
      field 0 of the referenced object with exactly the mapped kind. */
  function ReadUnionOf<P, N>(u: UnionInfo, node: Object<P>, data: Buffer, tag: Byte, readNode: NodeReader<N>)
    : (r: Result<UnionNode<P, N>, Error>)
    ensures tag !in u.unionTypes ==> r == Err(UnknownUnionTag)
    ensures tag in u.unionTypes ==> var info := u.unionTypes[tag];
      match readNode(node.table, 0, info.typeCode, info.isArray)
      case Ok(inner) => r == Ok(UnionNode(info, node, inner))
      case Err(e) => r == Err(e)
  {
    if tag !in u.unionTypes then Err(UnknownUnionTag)
    else
      var info := u.unionTypes[tag];
      var inner :- readNode(node.table, 0, info.typeCode, info.isArray);
      Ok(UnionNode(info, node, inner))
  }

  /** `ReadUnion(parent, data)`: the discriminant is the byte at field 0 of
      the wrapper table, the object is the reference at field 1. */
  function ReadUnion<P, N>(u: UnionInfo, parent: P, parentTable: FieldTable, data: Buffer, readNode: NodeReader<N>)
    : (r: Result<UnionNode<P, N>, Error>)
    ensures r.Ok? ==>
      && ReadUInt8(data, parentTable, 0).Ok?
      && ReadFromField(parent, parentTable, 1, data).Ok?
      && r == ReadUnionOf(u, ReadFromField(parent, parentTable, 1, data).value, data,
                          ReadUInt8(data, parentTable, 0).value, readNode)
    ensures ReadUInt8(data, parentTable, 0).Err? ==> r == Err(ReadUInt8(data, parentTable, 0).error)
    ensures ReadUInt8(data, parentTable, 0).Ok? && ReadFromField(parent, parentTable, 1, data).Err? ==>
              r == Err(ReadFromField(parent, parentTable, 1, data).error)
    ensures ReadUInt8(data, parentTable, 0).Ok? && ReadFromField(parent, parentTable, 1, data).Ok? ==>
              r == ReadUnionOf(u, ReadFromField(parent, parentTable, 1, data).value, data,
                               ReadUInt8(data, parentTable, 0).value, readNode)
  {
    var tag :- ReadUInt8(data, parentTable, 0);
    var node :- ReadFromField(parent, parentTable, 1, data);
    ReadUnionOf(u, node, data, tag, readNode)
  }

  /** A successful union read carries the arm mapped for the wrapper's type
      byte, an object at the wrapper's field-1 reference whose parent is the
      `parent` passed in (the wrapper, when the caller passes it with its own
      layout), and the payload read at field 0 of that object. */
  lemma ReadUnionResolves<P, N>(u: UnionInfo, parent: P, parentTable: FieldTable, data: Buffer, readNode: NodeReader<N>)
    requires ReadUnion(u, parent, parentTable, data, readNode).Ok?
    ensures var un := ReadUnion(u, parent, parentTable, data, readNode).value;
      var tag := data[GetFieldOffset(parentTable, 0).value];
      && GetFieldOffset(parentTable, 0).Ok?
      && tag in u.unionTypes
      && un.info == u.unionTypes[tag]
      && un.node.parent == parent
      && un.node.table.offset == GetReferenceOffset(data, parentTable, 1).value
      && readNode(un.node.table, 0, un.info.typeCode, un.info.isArray) == Ok(un.inner)
  {
  }

  /** With the default mapping every tag fails. */
  lemma DefaultRejectsEveryTag<P, N>(parent: P, parentTable: FieldTable, data: Buffer, readNode: NodeReader<N>)
    ensures ReadUnion(Default(), parent, parentTable, data, readNode).Err?
  {
  }
}

=== FILE: grouping.dfy ===
/** LINQ's `GroupBy` on a sequence: groups in order of the first appearance
    of their key, each holding its members in input order. */
module Grouping {
  import opened Wrappers

  datatype Group<K, T> = Group(key: K, members: seq<T>)

  /** The members of `xs` with key `k`, in input order (`Where`). */
  function Filter<T, K(==)>(xs: seq<T>, key: T -> K, k: K): (r: seq<T>)
    ensures |r| <= |xs|
    ensures forall j :: 0 <= j < |r| ==> key(r[j]) == k
    decreases |xs|
  {
    if |xs| == 0 then []
    else
      var last := xs[|xs| - 1];
      Filter(xs[..|xs| - 1], key, k) + (if key(last) == k then [last] else [])
  }

  /** Every selected element is an element of the input with the key. */
  lemma {:induction false} FilterMember<T, K>(xs: seq<T>, key: T -> K, k: K, j: nat)
    requires j < |Filter(xs, key, k)|
    ensures key(Filter(xs, key, k)[j]) == k
    ensures exists m :: 0 <= m < |xs| && xs[m] == Filter(xs, key, k)[j]
    decreases |xs|
  {
    var prefix := Filter(xs[..|xs| - 1], key, k);
    if j < |prefix| {
      FilterMember(xs[..|xs| - 1], key, k, j);
      var m :| 0 <= m < |xs| - 1 && xs[..|xs| - 1][m] == prefix[j];
      assert xs[m] == prefix[j];
    } else {
      assert Filter(xs, key, k)[j] == xs[|xs| - 1];
    }
  }

  /** The keys of `xs`, each once, in order of first appearance: the
      reference definition of the order `GroupBy` yields. */
  function DistinctKeys<T, K(==)>(xs: seq<T>, key: T -> K): (r: seq<K>)
    ensures forall i, j :: 0 <= i < j < |r| ==> r[i] != r[j]
    ensures forall j :: 0 <= j < |xs| ==> key(xs[j]) in r
    ensures forall i :: 0 <= i < |r| ==> r[i] in KeySeq(xs, key)
    decreases |xs|
  {
    if |xs| == 0 then []
    else
      var prefix := DistinctKeys(xs[..|xs| - 1], key);
      var last := xs[|xs| - 1];
      assert forall j :: 0 <= j < |xs| - 1 ==> xs[j] == xs[..|xs| - 1][j];
      assert KeySeq(xs, key) == KeySeq(xs[..|xs| - 1], key) + [key(last)];
      if key(last) in prefix then prefix else prefix + [key(last)]
  }

  /** The key of every element, in input order (`Select(key)`). */
  function KeySeq<T, K>(xs: seq<T>, key: T -> K): (r: seq<K>)
    ensures |r| == |xs| && forall j :: 0 <= j < |xs| ==> r[j] == key(xs[j])
  {
    seq(|xs|, j requires 0 <= j < |xs| => key(xs[j]))
  }

  /** The keys come in order of first appearance: wherever a later key
      occurs in the input, an earlier key has already occurred before it. */
  lemma {:induction false} DistinctKeysFirstAppearance<T, K>(xs: seq<T>, key: T -> K, i: nat, j: nat, m: nat)
    requires i < j < |DistinctKeys(xs, key)|
    requires m < |xs| && key(xs[m]) == DistinctKeys(xs, key)[j]
    ensures DistinctKeys(xs, key)[i] in KeySeq(xs, key)[..m]
    decreases |xs|
  {
    var prefix := xs[..|xs| - 1];
    var d := DistinctKeys(prefix, key);
    var r := DistinctKeys(xs, key);
    var k := key(xs[|xs| - 1]);
    assert r == if k in d then d else d + [k];
    assert r[i] == d[i];
    assert KeySeq(xs, key)[..|xs| - 1] == KeySeq(prefix, key);
    if m < |xs| - 1 {
      assert key(prefix[m]) in KeySeq(prefix, key);
      assert j < |d|;
      DistinctKeysFirstAppearance(prefix, key, i, j, m);
      assert KeySeq(xs, key)[..m] == KeySeq(prefix, key)[..m];
    }
  }

  function Keys<K, T>(g: seq<Group<K, T>>): (r: seq<K>)
    ensures |r| == |g| && forall i :: 0 <= i < |g| ==> r[i] == g[i].key
  {
    seq(|g|, i requires 0 <= i < |g| => g[i].key)
  }

  /** The position of the group with key `k`, if any. */
  function Find<K(==), T>(g: seq<Group<K, T>>, k: K): (r: Option<nat>)
    ensures r.Some? ==> r.value < |g| && g[r.value].key == k
    ensures r.None? ==> forall i :: 0 <= i < |g| ==> g[i].key != k
    decreases |g|
  {
    if |g| == 0 then None
    else if g[|g| - 1].key == k then Some(|g| - 1)
    else Find(g[..|g| - 1], k)
  }

  /** Adds one element to its group, opening a new group at the end when
      its key has not been seen. */
  function Add<K(==), T>(g: seq<Group<K, T>>, k: K, x: T): seq<Group<K, T>> {
    match Find(g, k)
    case Some(i) => g[i := g[i].(members := g[i].members + [x])]
    case None => g + [Group(k, [x])]
  }

  /** `GroupBy(key)`. */
  function GroupBy<T, K(==)>(xs: seq<T>, key: T -> K): (r: seq<Group<K, T>>)
    ensures Keys(r) == DistinctKeys(xs, key)
    ensures forall i :: 0 <= i < |r| ==> r[i].members == Filter(xs, key, r[i].key)
    ensures forall i :: 0 <= i < |r| ==> |r[i].members| > 0
    decreases |xs|
  {
    if |xs| == 0 then []
    else
      var g := GroupBy(xs[..|xs| - 1], key);
      AddKeys(xs, key, g);
      AddMembers(xs, key, g);
      Add(g, key(xs[|xs| - 1]), xs[|xs| - 1])
  }

  /** Adding the last element extends the key order as first appearance does. */
  lemma AddKeys<T, K>(xs: seq<T>, key: T -> K, g: seq<Group<K, T>>)
    requires |xs| > 0 && Keys(g) == DistinctKeys(xs[..|xs| - 1], key)
    ensures Keys(Add(g, key(xs[|xs| - 1]), xs[|xs| - 1])) == DistinctKeys(xs, key)
  {
    DistinctKeysSnoc(xs, key);
    AddKeysCases(g, key(xs[|xs| - 1]), xs[|xs| - 1]);
  }

  /** Adding to a known key keeps the keys; a new key is appended. */
  lemma AddKeysCases<K, T>(g: seq<Group<K, T>>, k: K, x: T)
    ensures k in Keys(g) ==> Keys(Add(g, k, x)) == Keys(g)
    ensures k !in Keys(g) ==> Keys(Add(g, k, x)) == Keys(g) + [k]
  {
    match Find(g, k)
    case Some(i) => {
      assert Keys(g)[i] == k;
      KeysOfUpdate(g, i, g[i].(members := g[i].members + [x]));
    }
    case None => {
      assert forall i :: 0 <= i < |g| ==> Keys(g)[i] != k;
      KeysOfAppend(g, Group(k, [x]));
    }
  }

  lemma DistinctKeysSnoc<T, K>(xs: seq<T>, key: T -> K)
    requires |xs| > 0
    ensures var d := DistinctKeys(xs[..|xs| - 1], key);
      DistinctKeys(xs, key) == if key(xs[|xs| - 1]) in d then d else d + [key(xs[|xs| - 1])]
  {
  }

  lemma KeysOfUpdate<K, T>(g: seq<Group<K, T>>, i: nat, x: Group<K, T>)
    requires i < |g| && x.key == g[i].key
    ensures Keys(g[i := x]) == Keys(g)
  {
  }

  lemma KeysOfAppend<K, T>(g: seq<Group<K, T>>, x: Group<K, T>)
    ensures Keys(g + [x]) == Keys(g) + [x.key]
  {
  }

  /** Adding the last element keeps every group equal to its filter. */
  lemma AddMembers<T, K>(xs: seq<T>, key: T -> K, g: seq<Group<K, T>>)
    requires |xs| > 0 && Keys(g) == DistinctKeys(xs[..|xs| - 1], key)
    requires forall i :: 0 <= i < |g| ==> g[i].members == Filter(xs[..|xs| - 1], key, g[i].key)
    requires forall i :: 0 <= i < |g| ==> |g[i].members| > 0
    ensures var r := Add(g, key(xs[|xs| - 1]), xs[|xs| - 1]);
      && (forall i :: 0 <= i < |r| ==> r[i].members == Filter(xs, key, r[i].key))
      && (forall i :: 0 <= i < |r| ==> |r[i].members| > 0)
  {
    var prefix := xs[..|xs| - 1];
    var last := xs[|xs| - 1];
    var r := Add(g, key(last), last);
    forall i | 0 <= i < |r|
      ensures r[i].members == Filter(xs, key, r[i].key)
    {
      if i < |g| {
        assert Filter(xs, key, r[i].key)
               == Filter(prefix, key, r[i].key) + (if key(last) == r[i].key then [last] else []);
      } else {
        NewKeyFilter(xs, key, g);
      }
    }
  }

  /** A key not yet grouped has no member among the earlier elements. */
  lemma NewKeyFilter<T, K>(xs: seq<T>, key: T -> K, g: seq<Group<K, T>>)
    requires |xs| > 0 && Keys(g) == DistinctKeys(xs[..|xs| - 1], key)
    requires Find(g, key(xs[|xs| - 1])).None?
    ensures Filter(xs, key, key(xs[|xs| - 1])) == [xs[|xs| - 1]]
  {
    var k := key(xs[|xs| - 1]);
    assert k !in Keys(g);
    FilterOfAbsentKey(xs[..|xs| - 1], key, k);
  }

  /** Only keys that occur select anything. */
  lemma {:induction false} FilterOfAbsentKey<T, K>(xs: seq<T>, key: T -> K, k: K)
    requires k !in DistinctKeys(xs, key)
    ensures Filter(xs, key, k) == []
    decreases |xs|
  {
    if |xs| > 0 {
      assert key(xs[|xs| - 1]) in DistinctKeys(xs, key);
      FilterOfAbsentKey(xs[..|xs| - 1], key, k);
    }
  }

  /** The members of all groups, group after group. */
  function Flatten<K, T>(g: seq<Group<K, T>>): seq<T>
    decreases |g|
  {
    if |g| == 0 then [] else Flatten(g[..|g| - 1]) + g[|g| - 1].members
  }

  lemma {:induction false} FlattenAdd<K, T>(g: seq<Group<K, T>>, i: nat, x: T)
    requires i < |g|
    ensures multiset(Flatten(g[i := g[i].(members := g[i].members + [x])])) == multiset(Flatten(g)) + multiset{x}
    decreases |g|
  {
    var n := |g| - 1;
    var g' := g[i := g[i].(members := g[i].members + [x])];
    assert Flatten(g') == Flatten(g'[..n]) + g'[n].members;
    assert Flatten(g) == Flatten(g[..n]) + g[n].members;
    if i < n {
      assert g'[..n] == g[..n][i := g[i].(members := g[i].members + [x])];
      assert g'[n] == g[n];
      FlattenAdd(g[..n], i, x);
    } else {
      assert g'[..n] == g[..n];
      assert g'[n].members == g[n].members + [x];
    }
  }

  /** Grouping loses nothing and duplicates nothing: every element of the
      input appears in exactly as many group slots as it occurs. */
  lemma {:induction false} GroupByPartition<T, K>(xs: seq<T>, key: T -> K)
    ensures multiset(Flatten(GroupBy(xs, key))) == multiset(xs)
    decreases |xs|
  {
    if |xs| > 0 {
      var prefix := xs[..|xs| - 1];
      var last := xs[|xs| - 1];
      var g := GroupBy(prefix, key);
      GroupByUnfold(xs, key);
      GroupByPartition(prefix, key);
      AddPartition(g, key(last), last);
      MultisetSnoc(xs);
    }
  }

  lemma GroupByUnfold<T, K>(xs: seq<T>, key: T -> K)
    requires |xs| > 0
    ensures GroupBy(xs, key) == Add(GroupBy(xs[..|xs| - 1], key), key(xs[|xs| - 1]), xs[|xs| - 1])
  {
  }

  lemma MultisetSnoc<T>(xs: seq<T>)
    requires |xs| > 0
    ensures multiset(xs) == multiset(xs[..|xs| - 1]) + multiset{xs[|xs| - 1]}
  {
    assert xs == xs[..|xs| - 1] + [xs[|xs| - 1]];
  }

  lemma AddPartition<K, T>(g: seq<Group<K, T>>, k: K, x: T)
    ensures multiset(Flatten(Add(g, k, x))) == multiset(Flatten(g)) + multiset{x}
  {
    match Find(g, k)
    case Some(i) => {
      FlattenAdd(g, i, x);
    }
    case None => {
      var r := g + [Group(k, [x])];
      assert r[..|g|] == g;
    }
  }
}

=== FILE: text.dfy ===
/** The few .NET string operations the crawler relies on, over `seq<char>`:
    white-space trimming, invariant lower-casing, suffix and substring tests,
    `IndexOf`, `Path.GetFileName` and ordinal comparison. */
module Text {
  import opened Wrappers

  /** `Char.IsWhiteSpace`: the Unicode separator categories plus the
      control characters U+0009..U+000D, U+0085. */
  predicate IsWhiteSpace(c: char) {
    || c == ' ' || ('\t' <= c <= '\r') || c == '\U{0085}' || c == '\U{00A0}'
    || c == '\U{1680}' || ('\U{2000}' <= c <= '\U{200A}') || c == '\U{2028}'
    || c == '\U{2029}' || c == '\U{202F}' || c == '\U{205F}' || c == '\U{3000}'
  }

  predicate AllWhiteSpace(s: string) {
    forall i :: 0 <= i < |s| ==> IsWhiteSpace(s[i])
  }

  /** `string.IsNullOrWhiteSpace` (a `string` here is never null). */
  predicate IsNullOrWhiteSpace(s: string) {
    AllWhiteSpace(s)
  }

  /** Drops the longest white-space prefix. */
  function TrimStart(s: string): (r: string)
    ensures |r| <= |s| && r == s[|s| - |r|..]
    ensures AllWhiteSpace(s[..|s| - |r|])
    ensures |r| > 0 ==> !IsWhiteSpace(r[0])
  {
    if |s| > 0 && IsWhiteSpace(s[0]) then TrimStart(s[1..]) else s
  }

  /** Drops the longest white-space suffix. */
  function TrimEnd(s: string): (r: string)
    ensures |r| <= |s| && r == s[..|r|]
    ensures AllWhiteSpace(s[|r|..])
    ensures |r| > 0 ==> !IsWhiteSpace(r[|r| - 1])
  {
    if |s| > 0 && IsWhiteSpace(s[|s| - 1]) then TrimEnd(s[..|s| - 1]) else s
  }

  /** `Trim`: a contiguous slice of `s` with only white space cut off either
      side, and no white space left at either end. */
  function Trim(s: string): (r: string)
    ensures exists i, j :: 0 <= i <= j <= |s| && r == s[i..j]
                        && AllWhiteSpace(s[..i]) && AllWhiteSpace(s[j..])
    ensures |r| > 0 ==> !IsWhiteSpace(r[0]) && !IsWhiteSpace(r[|r| - 1])
  {
    var t := TrimStart(s);
    var r := TrimEnd(t);
    TrimWitness(s, t, r);
    r
  }

  lemma TrimWitness(s: string, t: string, r: string)
    requires |t| <= |s| && t == s[|s| - |t|..] && AllWhiteSpace(s[..|s| - |t|])
    requires |r| <= |t| && r == t[..|r|] && AllWhiteSpace(t[|r|..])
    ensures exists i, j :: 0 <= i <= j <= |s| && r == s[i..j]
                        && AllWhiteSpace(s[..i]) && AllWhiteSpace(s[j..])
  {
    var i := |s| - |t|;
    var j := i + |r|;
    assert r == s[i..j];
    assert s[j..] == t[|r|..];
  }

  lemma {:induction false} TrimStartNoop(s: string)
    requires |s| == 0 || !IsWhiteSpace(s[0])
    ensures TrimStart(s) == s
  {
  }

  lemma {:induction false} TrimEndNoop(s: string)
    requires |s| == 0 || !IsWhiteSpace(s[|s| - 1])
    ensures TrimEnd(s) == s
  {
  }

  /** Trimming twice is trimming once. */
  lemma TrimIdempotent(s: string)
    ensures Trim(Trim(s)) == Trim(s)
  {
    var r := Trim(s);
    TrimStartNoop(r);
    TrimEndNoop(r);
  }

  lemma {:induction false} TrimStartPadding(p: string, s: string)
    requires AllWhiteSpace(p)
    ensures TrimStart(p + s) == TrimStart(s)
  {
    if |p| > 0 {
      var ps := p + s;
      assert ps[0] == p[0];
      assert ps[1..] == p[1..] + s;
      assert AllWhiteSpace(p[1..]);
      TrimStartPadding(p[1..], s);
    } else {
      assert p + s == s;
    }
  }

  lemma {:induction false} TrimEndPadding(s: string, q: string)
    requires AllWhiteSpace(q)
    ensures TrimEnd(s + q) == TrimEnd(s)
  {
    if |q| > 0 {
      var sq := s + q;
      var q' := q[..|q| - 1];
      assert sq[|sq| - 1] == q[|q| - 1];
      assert sq[..|sq| - 1] == s + q';
      assert AllWhiteSpace(q');
      TrimEndPadding(s, q');
    } else {
      assert s + q == s;
    }
  }

  lemma {:induction false} TrimStartAppend(s: string, q: string)
    requires |TrimStart(s)| > 0
    ensures TrimStart(s + q) == TrimStart(s) + q
  {
    var sq := s + q;
    assert sq[0] == s[0];
    if IsWhiteSpace(s[0]) {
      assert sq[1..] == s[1..] + q;
      TrimStartAppend(s[1..], q);
    }
  }

  lemma {:induction false} TrimStartAllWhiteSpace(s: string)
    requires AllWhiteSpace(s)
    ensures TrimStart(s) == ""
  {
    if |s| > 0 {
      assert AllWhiteSpace(s[1..]);
      TrimStartAllWhiteSpace(s[1..]);
    }
  }

  lemma {:induction false} TrimAllWhiteSpace(s: string, q: string)
    requires AllWhiteSpace(s) && AllWhiteSpace(q)
    ensures TrimStart(s + q) == ""
  {
    assert AllWhiteSpace(s + q) by {
      forall k | 0 <= k < |s + q| ensures IsWhiteSpace((s + q)[k]) {
        if k < |s| { assert (s + q)[k] == s[k]; } else { assert (s + q)[k] == q[k - |s|]; }
      }
    }
    TrimStartAllWhiteSpace(s + q);
  }

  lemma {:induction false} TrimTrailingPadding(s: string, q: string)
    requires AllWhiteSpace(q)
    ensures TrimEnd(TrimStart(s + q)) == TrimEnd(TrimStart(s))
  {
    var t := TrimStart(s);
    if |t| > 0 {
      TrimStartAppend(s, q);
      TrimEndPadding(t, q);
    } else {
      TrimAllWhiteSpace(s, q);
    }
  }

  /** White space around a text never changes its trimmed form. */
  lemma TrimPadding(p: string, s: string, q: string)
    requires AllWhiteSpace(p) && AllWhiteSpace(q)
    ensures Trim(p + (s + q)) == Trim(s)
  {
    TrimStartPadding(p, s + q);
    TrimTrailingPadding(s, q);
  }

  /** `Char.ToLowerInvariant` restricted to the ASCII letters. */
  function ToLower(c: char): (r: char)
    ensures 'A' <= c <= 'Z' ==> r as int == c as int + 32
    ensures !('A' <= c <= 'Z') ==> r == c
  {
    if 'A' <= c <= 'Z' then (c as int + 32) as char else c
  }

  /** `string.ToLowerInvariant`, character by character. */
  function ToLowerString(s: string): (r: string)
    ensures |r| == |s|
    ensures forall i :: 0 <= i < |s| ==> r[i] == ToLower(s[i])
  {
    seq(|s|, i requires 0 <= i < |s| => ToLower(s[i]))
  }

  /** `Equals(.., StringComparison.OrdinalIgnoreCase)` for ASCII case. */
  predicate EqualsIgnoreCase(a: string, b: string) {
    |a| == |b| && forall i :: 0 <= i < |a| ==> ToLower(a[i]) == ToLower(b[i])
  }

  /** `EndsWith(.., StringComparison.Ordinal)`. */
  predicate EndsWith(s: string, suffix: string) {
    |suffix| <= |s| && s[|s| - |suffix|..] == suffix
  }

  /** `string.Contains(string)`: an ordinal substring test. */
  predicate Contains(s: string, sub: string)
    decreases |s|
  {
    (|sub| <= |s| && s[..|sub|] == sub) || (|s| > 0 && Contains(s[1..], sub))
  }

  /** `string.IndexOf(char)`: the first position of `c`, `None` for -1. */
  function IndexOf(s: string, c: char): (r: Option<nat>)
    ensures r.Some? ==> r.value < |s| && s[r.value] == c
                        && forall k :: 0 <= k < r.value ==> s[k] != c
    ensures r.None? <==> c !in s
  {
    if |s| == 0 then None
    else if s[0] == c then Some(0)
    else match IndexOf(s[1..], c)
      case None => None
      case Some(k) => Some(k + 1)
  }

  /** A directory separator: `\` or `/`, as on Windows. */
  predicate IsDirectorySeparator(c: char) {
    c == '/' || c == '\\'
  }

  /** `Path.GetFileName`: the text after the last directory separator. */
  function GetFileName(path: string): (r: string)
    ensures |r| <= |path| && r == path[|path| - |r|..]
    ensures forall k :: 0 <= k < |r| ==> !IsDirectorySeparator(r[k])
    ensures |r| < |path| ==> IsDirectorySeparator(path[|path| - |r| - 1])
  {
    if |path| == 0 then ""
    else if IsDirectorySeparator(path[|path| - 1]) then ""
    else GetFileName(path[..|path| - 1]) + [path[|path| - 1]]
  }

  /** Ordinal lexicographic order on strings, character by character (by
      code point, since a `char` is a Unicode scalar value). */
  predicate OrdinalLessOrEqual(a: string, b: string) {
    if |a| == 0 then true
    else if |b| == 0 then false
    else if a[0] != b[0] then a[0] < b[0]
    else OrdinalLessOrEqual(a[1..], b[1..])
  }

  lemma {:induction false} OrdinalTotal(a: string, b: string)
    ensures OrdinalLessOrEqual(a, b) || OrdinalLessOrEqual(b, a)
  {
    if |a| > 0 && |b| > 0 && a[0] == b[0] {
      OrdinalTotal(a[1..], b[1..]);
    }
  }

  lemma {:induction false} OrdinalTransitive(a: string, b: string, c: string)
    requires OrdinalLessOrEqual(a, b) && OrdinalLessOrEqual(b, c)
    ensures OrdinalLessOrEqual(a, c)
  {
    if |a| > 0 && |b| > 0 && |c| > 0 && a[0] == b[0] && b[0] == c[0] {
      OrdinalTransitive(a[1..], b[1..], c[1..]);
    }
  }

  lemma {:induction false} OrdinalAntisymmetric(a: string, b: string)
    requires OrdinalLessOrEqual(a, b) && OrdinalLessOrEqual(b, a)
    ensures a == b
  {
    if |a| > 0 && |b| > 0 {
      OrdinalAntisymmetric(a[1..], b[1..]);
      assert a == [a[0]] + a[1..];
      assert b == [b[0]] + b[1..];
    }
  }
}

=== FILE: type_code.dfy ===
/** Parsing an operator's type token (`" u32[] "`, `"TABLE"`, `"s16"`) into
    an `(asArray, TypeCode)` pair, as `TypeCodeUtil` does. */
module TypeCodeUtil {
  import opened Text

  /** `System.TypeCode`. */
  datatype TypeCode =
    | Empty | Object | DBNull | Boolean | Char | SByte | Byte
    | Int16 | UInt16 | Int32 | UInt32 | Int64 | UInt64
    | Single | Double | Decimal | DateTime | String

  /** The code standing for "no such type". */
  const Unrecognized: TypeCode := Empty

  /** The exact, case-sensitive token table. */
  function GetTypeCode(t: string): (r: TypeCode)
    ensures r != Unrecognized <==> t in KnownTokens()
  {
    if t == "bool" then Boolean
    else if t == "sbyte" || t == "s8" then SByte
    else if t == "short" || t == "s16" then Int16
    else if t == "int" || t == "s32" then Int32
    else if t == "long" || t == "s64" then Int64
    else if t == "byte" || t == "u8" || t == "i8" then Byte
    else if t == "ushort" || t == "u16" || t == "i16" then UInt16
    else if t == "uint" || t == "u32" || t == "i32" then UInt32
    else if t == "ulong" || t == "u64" || t == "i64" then UInt64
    else if t == "float" then Single
    else if t == "double" then Double
    else if t == "string" || t == "str" then String
    else if t == "object" || t == "obj" || t == "table" then Object
    else Unrecognized
  }

  /** The tokens naming each code: the table read from the code's side. */
  function Aliases(c: TypeCode): set<string> {
    match c
    case Boolean => {"bool"}
    case SByte => {"sbyte", "s8"}
    case Int16 => {"short", "s16"}
    case Int32 => {"int", "s32"}
    case Int64 => {"long", "s64"}
    case Byte => {"byte", "u8", "i8"}
    case UInt16 => {"ushort", "u16", "i16"}
    case UInt32 => {"uint", "u32", "i32"}
    case UInt64 => {"ulong", "u64", "i64"}
    case Single => {"float"}
    case Double => {"double"}
    case String => {"string", "str"}
    case Object => {"object", "obj", "table"}
    case _ => {}
  }

  /** Every token the table recognises. */
  function KnownTokens(): set<string> {
    {"bool", "sbyte", "s8", "short", "s16", "int", "s32", "long", "s64",
     "byte", "u8", "i8", "ushort", "u16", "i16", "uint", "u32", "i32",
     "ulong", "u64", "i64", "float", "double", "string", "str",
     "object", "obj", "table"}
  }

  /** `IsValidNodeType`. */
  predicate IsValidNodeType(c: TypeCode) {
    c != Unrecognized
  }

  /** The token after trimming and after removing one trailing `[]`; the
      flag says whether `[]` was removed. */
  function StripArray(text: string): (r: (bool, string))
    ensures r.0 <==> EndsWith(Trim(text), "[]")
    ensures r.0 ==> Trim(text) == r.1 + "[]"
    ensures !r.0 ==> r.1 == Trim(text)
  {
    var t := Trim(text);
    if EndsWith(t, "[]") then (true, t[..|t| - 2]) else (false, t)
  }

  predicate IsTableWord(s: string) {
    EqualsIgnoreCase(s, "table")
  }

  /** `GetTypeCodeTuple`: the array flag and the code of a type token. */
  function GetTypeCodeTuple(text: string): (r: (bool, TypeCode))
    ensures var (arr, s) := StripArray(text);
      && (r.0 <==> arr || IsTableWord(s))
      && (IsTableWord(s) ==> r.1 == Object)
      && (!IsTableWord(s) ==> (r.1 != Unrecognized <==> s in KnownTokens()))
      && (!IsTableWord(s) && r.1 != Unrecognized ==> s in Aliases(r.1))
  {
    var (asArray, s) := StripArray(text);
    if IsTableWord(s) then (true, Object)
    else
      var c := GetTypeCode(s);
      if c == Unrecognized then (asArray, c)
      else AliasesInvert(s, c); (asArray, c)
  }

  /** The table and its inverse agree: a token maps to a recognised code
      exactly when it is one of that code's aliases. */
  lemma AliasesInvert(t: string, c: TypeCode)
    requires c != Unrecognized
    ensures GetTypeCode(t) == c <==> t in Aliases(c)
  {
    if t in Aliases(c) {
      AliasesSound(t, c);
    } else if GetTypeCode(t) == c {
      AliasesComplete(t);
    }
  }

  /** Every alias of a code maps to that code. The case split is spread over
      one helper per code, each small enough for the solver. */
  lemma AliasesSound(t: string, c: TypeCode)
    requires t in Aliases(c)
    ensures GetTypeCode(t) == c
  {
    match c
    case Boolean => BooleanAliasesSound(t);
    case SByte => SByteAliasesSound(t);
    case Int16 => Int16AliasesSound(t);
    case Int32 => Int32AliasesSound(t);
    case Int64 => Int64AliasesSound(t);
    case Byte => ByteAliasesSound(t);
    case UInt16 => UInt16AliasesSound(t);
    case UInt32 => UInt32AliasesSound(t);
    case UInt64 => UInt64AliasesSound(t);
    case Single => SingleAliasesSound(t);
    case Double => DoubleAliasesSound(t);
    case String => StringAliasesSound(t);
    case Object => ObjectAliasesSound(t);
  }

  lemma BooleanAliasesSound(t: string)
    requires t in Aliases(Boolean)
    ensures GetTypeCode(t) == Boolean
  {
    assert t == "bool";
  }

  lemma SByteAliasesSound(t: string)
    requires t in Aliases(SByte)
    ensures GetTypeCode(t) == SByte
  {
    if t == "sbyte" {
    } else {
      assert t == "s8";
    }
  }

  lemma Int16AliasesSound(t: string)
    requires t in Aliases(Int16)
    ensures GetTypeCode(t) == Int16
  {
    if t == "short" {
    } else {
      assert t == "s16";
    }
  }

  lemma Int32AliasesSound(t: string)
    requires t in Aliases(Int32)
    ensures GetTypeCode(t) == Int32
  {
    if t == "int" {
    } else {
      assert t == "s32";
    }
  }

  lemma Int64AliasesSound(t: string)
    requires t in Aliases(Int64)
    ensures GetTypeCode(t) == Int64
  {
    if t == "long" {
    } else {
      assert t == "s64";
    }
  }

  lemma ByteAliasesSound(t: string)
    requires t in Aliases(Byte)
    ensures GetTypeCode(t) == Byte
  {
    if t == "byte" {
    } else if t == "u8" {
    } else {
      assert t == "i8";
    }
  }

  lemma UInt16AliasesSound(t: string)
    requires t in Aliases(UInt16)
    ensures GetTypeCode(t) == UInt16
  {
    if t == "ushort" {
    } else if t == "u16" {
    } else {
      assert t == "i16";
    }
  }

  lemma UInt32AliasesSound(t: string)
    requires t in Aliases(UInt32)
    ensures GetTypeCode(t) == UInt32
  {
    if t == "uint" {
    } else if t == "u32" {
    } else {
      assert t == "i32";
    }
  }

  lemma UInt64AliasesSound(t: string)
    requires t in Aliases(UInt64)
    ensures GetTypeCode(t) == UInt64
  {
    if t == "ulong" {
    } else if t == "u64" {
    } else {
      assert t == "i64";
    }
  }

  lemma SingleAliasesSound(t: string)
    requires t in Aliases(Single)
    ensures GetTypeCode(t) == Single
  {
    assert t == "float";
  }

  lemma DoubleAliasesSound(t: string)
    requires t in Aliases(Double)
    ensures GetTypeCode(t) == Double
  {
    assert t == "double";
  }

  lemma StringAliasesSound(t: string)
    requires t in Aliases(String)
    ensures GetTypeCode(t) == String
  {
    if t == "string" {
    } else {
      assert t == "str";
    }
  }

  lemma ObjectAliasesSound(t: string)
    requires t in Aliases(Object)
    ensures GetTypeCode(t) == Object
  {
    if t == "object" {
    } else if t == "obj" {
    } else {
      assert t == "table";
    }
  }

  /** Every token the table recognises is one of its code's aliases. */
  lemma AliasesComplete(t: string)
    requires GetTypeCode(t) != Unrecognized
    ensures t in Aliases(GetTypeCode(t))
  {
    if t == "bool" {
      assert GetTypeCode(t) == Boolean;
    } else if t == "sbyte" || t == "s8" {
      assert GetTypeCode(t) == SByte;
    } else if t == "short" || t == "s16" {
      assert GetTypeCode(t) == Int16;
    } else if t == "int" || t == "s32" {
      assert GetTypeCode(t) == Int32;
    } else if t == "long" || t == "s64" {
      assert GetTypeCode(t) == Int64;
    } else if t == "byte" || t == "u8" || t == "i8" {
      assert GetTypeCode(t) == Byte;
    } else if t == "ushort" || t == "u16" || t == "i16" {
      assert GetTypeCode(t) == UInt16;
    } else if t == "uint" || t == "u32" || t == "i32" {
      assert GetTypeCode(t) == UInt32;
    } else if t == "ulong" || t == "u64" || t == "i64" {
      assert GetTypeCode(t) == UInt64;
    } else if t == "float" {
      assert GetTypeCode(t) == Single;
    } else if t == "double" {
      assert GetTypeCode(t) == Double;
    } else if t == "string" || t == "str" {
      assert GetTypeCode(t) == String;
    } else if t == "object" || t == "obj" || t == "table" {
      assert GetTypeCode(t) == Object;
    }
  }

  /** A code is a valid node type exactly when some token in the table names it. */
  lemma ValidIffKnown(t: string)
    ensures IsValidNodeType(GetTypeCode(t)) <==> t in KnownTokens()
  {
  }

  /** Every recognised token is spelt with lower-case ASCII letters and digits. */
  lemma KnownTokenSpelling(t: string, j: nat)
    requires t in KnownTokens() && j < |t|
    ensures 'a' <= t[j] <= 'z' || '0' <= t[j] <= '9'
  {
  }

  /** No recognised token contains an upper-case ASCII letter, so the lookup
      is case-sensitive: `"Int"` is unrecognised although `"int"` is not. */
  lemma {:induction false} UpperCaseUnrecognized(t: string, i: nat)
    requires i < |t| && 'A' <= t[i] <= 'Z'
    ensures GetTypeCode(t) == Unrecognized
  {
    if t in KnownTokens() {
      KnownTokenSpelling(t, i);
    }
  }

  lemma EmptyAndCapitalizedUnrecognized()
    ensures GetTypeCode("") == Unrecognized
    ensures GetTypeCode("Int") == Unrecognized
  {
    UpperCaseUnrecognized("Int", 0);
  }

  /** No recognised token and no spelling of `table` holds white space. */
  lemma {:induction false} WhiteSpaceTokenUnrecognized(s: string, i: nat)
    requires i < |s| && IsWhiteSpace(s[i])
    ensures GetTypeCode(s) == Unrecognized
    ensures !IsTableWord(s)
  {
    if s in KnownTokens() {
      KnownTokenSpelling(s, i);
    }
    if |s| == 5 {
      assert ToLower(s[i]) != ToLower("table"[i]);
    }
  }

  /** White space is trimmed once, before `[]` is stripped: white space left
      inside the stripped token makes it unrecognised (`"int []"`). */
  lemma {:induction false} InnerWhiteSpaceUnrecognized(text: string, i: nat)
    requires i < |StripArray(text).1| && IsWhiteSpace(StripArray(text).1[i])
    ensures GetTypeCodeTuple(text).1 == Unrecognized
  {
    WhiteSpaceTokenUnrecognized(StripArray(text).1, i);
  }

  /** Only one `[]` is removed: a doubled suffix is unrecognised but still
      flagged as an array. */
  lemma {:induction false} ArrayStrippedOnce(text: string)
    requires EndsWith(Trim(text), "[][]")
    ensures GetTypeCodeTuple(text) == (true, Unrecognized)
  {
    var t := Trim(text);
    DoubledSuffix(t);
    var s := StripArray(text).1;
    assert s == t[..|t| - 2];
    BracketTokenUnrecognized(s);
  }

  lemma DoubledSuffix(t: string)
    requires EndsWith(t, "[][]")
    ensures EndsWith(t, "[]") && |t| >= 4 && t[..|t| - 2][|t| - 3] == ']'
  {
    assert t[|t| - 2..] == t[|t| - 4..][2..];
    assert t[|t| - 3] == t[|t| - 4..][1];
  }

  /** A token ending in a bracket is neither `table` nor a known name. */
  lemma BracketTokenUnrecognized(s: string)
    requires |s| > 0 && s[|s| - 1] == ']'
    ensures !IsTableWord(s) && s !in KnownTokens()
  {
    if |s| == 5 {
      assert ToLower(s[4]) != ToLower("table"[4]);
    }
    if s in KnownTokens() {
      KnownTokenSpelling(s, |s| - 1);
    }
  }

  /** `table`, in any ASCII case, is always an array of objects. */
  lemma {:induction false} TableIsObjectArray(text: string)
    requires IsTableWord(StripArray(text).1)
    ensures GetTypeCodeTuple(text) == (true, Object)
  {
  }

  /** A token with no padding and no `[]` suffix is looked up as it stands:
      as a single value, unless it spells `table`. */
  lemma {:induction false} PlainTokenTuple(t: string)
    requires |t| > 0 && !IsWhiteSpace(t[0]) && !IsWhiteSpace(t[|t| - 1])
    requires !EndsWith(t, "[]")
    ensures GetTypeCodeTuple(t) == if IsTableWord(t) then (true, Object) else (false, GetTypeCode(t))
  {
    TrimStartNoop(t);
    TrimEndNoop(t);
  }

  /** Every recognised token, as typed, is looked up unchanged. */
  lemma KnownTokenTuple(t: string)
    requires t in KnownTokens()
    ensures GetTypeCodeTuple(t) == if IsTableWord(t) then (true, Object) else (false, GetTypeCode(t))
  {
    assert |t| > 0;
    KnownTokenSpelling(t, 0);
    KnownTokenSpelling(t, |t| - 1);
    assert !EndsWith(t, "[]") by {
      assert t[|t| - 1] != ']';
    }
    PlainTokenTuple(t);
  }

  /** Appending `[]` to such a token flags an array of the same code. */
  lemma {:induction false} ArrayTokenTuple(s: string)
    requires |s| > 0 && !IsWhiteSpace(s[0]) && !IsTableWord(s)
    ensures GetTypeCodeTuple(s + "[]") == (true, GetTypeCode(s))
  {
    var t := s + "[]";
    TrimStartNoop(t);
    TrimEndNoop(t);
    assert t[|t| - 2..] == "[]";
    assert t[..|t| - 2] == s;
  }

  /** Leading and trailing white space is trimmed before any
      classification. */
  lemma PaddingIgnored(p: string, text: string, q: string)
    requires AllWhiteSpace(p) && AllWhiteSpace(q)
    ensures GetTypeCodeTuple(p + (text + q)) == GetTypeCodeTuple(text)
  {
    TrimPadding(p, text, q);
  }
}

=== FILE: wrappers.dfy ===
/** Failure-compatible wrappers used by every module of the model: an
    optional value and a value-or-error result, both usable with `:-`. */
module Wrappers {

  datatype Option<+T> = None | Some(value: T) {

    predicate IsFailure() {
      None?
    }

    function PropagateFailure<U>(): Option<U>
      requires None?
    {
      None
    }

    function Extract(): T
      requires Some?
    {
      value
    }
  }

  /** The outcome of an operation that FlatCrawler ends by throwing. */
  datatype Result<+T, +E> = Ok(value: T) | Err(error: E) {

    predicate IsFailure() {
      Err?
    }

    function PropagateFailure<U>(): Result<U, E>
      requires Err?
    {
      Err(error)
    }

    function Extract(): T
      requires Ok?
    {
      value
    }
  }
}
